=== FILE: README.md ===
# pyStoNED formulations in Dafny

This project models how pyStoNED turns data and a handful of switches into
an optimisation problem. It covers four parts of the library:

- CNLS+G quantile regression (`CQRZG2`) and its expectile variant (`CERZG2`);
- the penalised quantile and expectile regressions (`pCQR`, `pCER`);
- isotonic CNLS (`icnls`);
- the data and solver utilities of `utils/tools.py` (input checks, list
  shaping, solver selection), which the library's estimators share. The
  three builders above do not import them.

A model is a `Formulation`. It has the index dimensions, the variable kinds
with their lower bounds, the objectives (each either active or deactivated),
and the constraint families by name. A family is either a list of keyed rows
or `Unsupported`, which is where the source's rule factory returns `False`.
Constraints are symbolic: an `Expr` tree over decision variables such as
`alpha[i]`, `beta[i, j]` and `epsilon_plus[i]`. Python's `sum` is a left fold
from 0. `log` is an uninterpreted function. A pair that a rule skips with
`Constraint.Skip` is simply absent from the list.

Modules:

| file | module | contents |
|---|---|---|
| outcomes.dfy | Outcomes | `Option`, `Result` and the exceptions the source raises |
| config.dfy | Config | `cet`, `fun`, `rts` and which combinations are implemented |
| expr.dfy | Expr | expressions, constraints, their variables and their value under an assignment |
| hyperplanes.dfy | Hyperplanes | `alpha[h] + sum(beta[h, j] * x[j])` and the Afriat cut between two hyperplanes |
| pairs.dfy | Pairs | row-major enumeration of the off-diagonal pairs a boolean gate matrix allows |
| formulation.dfy | Formulation | the model container; objective deactivation and replacement |
| losses.dfy | Losses | quantile and expectile check losses; L1 and L2 slope penalties |
| tools.dfy | Tools | `to_1d_list`, `to_2d_list`, the data validators, the NEOS e-mail check, solver choice, the guards |
| cqerzg2.dfy | CqerZg2 | `CQRZG2` / `CERZG2` construction and the solve-status flag |
| pcqer.dfy | PCqer | penalty dispatch of `pCQR` / `pCER` |
| icnls.dfy | Icnls | `icnls` for every `crt` / `pps` / `func` branch |

## Model

| member | source | states |
|---|---|---|
| Tools.ToOneD | pystoned/utils/tools.py:54-62 | A number becomes a one-element list, and a flat list comes back unchanged. A list of rows becomes its first column, with the same length. Indexing an empty list or an empty row fails with an IndexError. |
| Tools.ToTwoD | pystoned/utils/tools.py:65-71 | A flat list becomes one-element rows, one per entry, and a list of rows is returned unchanged. A number fails with a TypeError, an empty list with an IndexError. |
| Tools.ToTwoDIdempotent | pystoned/utils/tools.py:65-71 | Applying `to_2d_list` to its own result changes nothing. |
| Tools.OneDTwoDRoundTrip | pystoned/utils/tools.py:54-71 | For every non-empty flat list `l`, `to_1d_list(to_2d_list(l)) == l`. |
| Tools.TransList | pystoned/utils/tools.py:48-51 | A list passes unchanged. A Python number, which has no `tolist`, raises an AttributeError. |
| Tools.NumberOutputRejected | pystoned/utils/tools.py:48-51 | A Python number for `y` fails with an AttributeError in both validators, before any shape check. |
| Tools.AssertValidBasicData | pystoned/utils/tools.py:74-101 | Accepts exactly when `y` is not a number, both normalise, the `y` and `x` row counts agree, and a given `z` has the same row count. It returns `y` flat and `x`/`z` as rows. A number for `y`, `x` or `z` gives an AttributeError and an empty list gives an IndexError. Each row-count mismatch gives its own error, the `x` one first. |
| Tools.DirectionalCore | pystoned/utils/tools.py:104-127 | Accepts exactly when `y` and `x` have the same row count, the `y` width equals `len(gy)`, and the `x` width equals `len(gx)`. It then returns `y`, `x` as rows and `gy`, `gx` flat. A number for `y` or `x` gives an AttributeError and an empty list an IndexError. The checks fail in source order: `x` rows, `y` width, `x` width. |
| Tools.AssertValidDirectionalDataAsWritten | pystoned/utils/tools.py:104-141 | With `b`, the only extra condition is that the `b` width equals `len(gb)`. An accepted result is the core data plus `b` as rows and `gb` flat. A core error is passed on. For `b`, a number gives AttributeError, an empty list IndexError, a missing `gb` TypeError, and a width mismatch its own error. The row-count error for `b` is never raised. |
| Tools.AssertValidDirectionalData | pystoned/utils/tools.py:104-141 | Corrected validator: with `b`, the row count of `b` must also equal that of `y`. The result and the errors are as for the as-written validator. The `b` row-count error comes before the `b` width error, and an accepted `b` has one row per observation. |
| Tools.BRowCheckNeverFires | pystoned/utils/tools.py:133-136 | Two observations with a one-row `b` pass the validator as written but are rejected by the corrected one. |
| Tools.EmailMatchesIffPattern | pystoned/utils/tools.py:7 | The hand-written matcher accepts an address exactly when the pattern `[^@]+@[^@]+\.[a-zA-Z0-9]+$` matches at its start. |
| Tools.SetNeosEmail | pystoned/utils/tools.py:10-22 | `OPT_LOCAL` returns False. A matching address returns True. Any other address raises a ValueError. |
| Tools.OptimizeModel | pystoned/utils/tools.py:25-45 | Remote: an explicit solver is passed through, else mosek for additive and knitro for multiplicative. Local: an available explicit solver is used, else mosek for additive. A local multiplicative model with no usable solver raises. A bad address raises before any choice is made. |
| Tools.AssertOptimized | pystoned/utils/tools.py:144-147 | Raises exactly when the status is 0. |
| Tools.AssertVariousReturnToScale | pystoned/utils/tools.py:162-165 | Raises exactly under constant returns to scale. |
| Tools.AlphaGuardMatchesModel | pystoned/utils/tools.py:162-165 | The guard raises exactly when the setting keeps no intercept, that is exactly when `alpha[h]` occurs in no hyperplane the builders make. |
| Pairs.ActivePairs | pystoned/utils/CQERZG2.py:252-260 | A pair `(i, h)` is generated exactly when `i != h` and its gate entry is true. Pairs come in the row-major order of `I x I`. |
| Pairs.ActivePairsCount | pystoned/utils/CQERZG2.py:252-260 | The number of generated pairs equals the number of true off-diagonal gate entries: nothing is repeated or lost. |
| Formulation.ActiveKeys | pystoned/ICNLS.py:65-75 | Rows keyed by the generated pairs carry a key exactly for each gated off-diagonal pair, one row per such pair. |
| Hyperplanes.OpFor | pystoned/utils/CQERZG2.py:198-201 | Production frontiers compare with `<=` and cost frontiers with `>=`. It is never an equation. |
| Hyperplanes.HyperVars | pystoned/utils/CQERZG2.py:206-237 | A hyperplane mentions the observation's slopes, and its intercept exactly when intercepts are kept. |
| Hyperplanes.CutVars | pystoned/utils/CQERZG2.py:206-237 | A cut mentions both observations' slopes, and both intercepts exactly when intercepts are kept. |
| Hyperplanes.CutWithoutInterceptIgnoresAlpha | pystoned/utils/CQERZG2.py:230-237 | A cut built without intercepts holds or fails whatever values the intercepts take. |
| Formulation.Deactivate | pystoned/utils/CQERZG2.py:383 | Deactivating by name keeps every objective in place and switches off exactly the named ones. |
| Formulation.ReplaceObjective | pystoned/utils/CQERZG2.py:383-385 | If every active objective carries the given name, deactivating that name leaves none active, and adding one active objective then leaves exactly one. |
| Losses.AllBetas | pystoned/pCQER.py:51 | `I * J` lists every `beta[i, j]` with `i < n` and `j < width`, and nothing else. |
| Losses.CheckLossVars | pystoned/utils/CQERZG2.py:131-138 | The quantile and expectile losses weigh every split residual and no other variable. |
| Losses.SlopePenaltyVars | pystoned/pCQER.py:48-62 | The L1 and L2 slope penalties reach every slope of every observation and no other variable. |
| CqerZg2.Promote | pystoned/utils/CQERZG2.py:35-43 | A flat `x` or `z`, the one-dimensional array this branch expects, becomes one-element rows. A list of rows is kept as given, and the row count is preserved. |
| CqerZg2.Layout | pystoned/utils/CQERZG2.py:57-70 | All seven variable kinds are declared, frontier included whatever `cet` is. Exactly beta, the two residual parts and frontier have lower bound 0. |
| CqerZg2.ErrorDecomposition | pystoned/utils/CQERZG2.py:140-146 | Row `i` is keyed `i` and is exactly the decomposition equation of observation `i`. |
| CqerZg2.DecompositionHolds | pystoned/utils/CQERZG2.py:142-144 | A decomposition equation holds iff `epsilon[i] == epsilon_plus[i] - epsilon_minus[i]`. |
| CqerZg2.ErrorDecompositionRoundTrip | pystoned/utils/CQERZG2.py:63-67 | At any point satisfying the decomposition and the bounds, each residual is the difference of two non-negative parts. |
| CqerZg2.Regression | pystoned/utils/CQERZG2.py:148-173 | Row `i` is keyed `i` and is exactly observation `i`'s regression equation for the error structure. It is unsupported exactly for additive error under CRS. |
| CqerZg2.RegressionResidual | pystoned/utils/CQERZG2.py:152-172 | Additive: the equation holds iff `epsilon[i]` is `y[i]` minus `alpha[i] + beta[i]·x[i]` and the contextual term. Multiplicative: iff it is `log(y[i])` minus `log(frontier[i] + 1)` and the contextual term. |
| CqerZg2.RegressionVars | pystoned/utils/CQERZG2.py:148-173 | The additive equation involves the observation's intercept and slopes, every contextual coefficient and its residual. The multiplicative one has the frontier instead of intercept and slopes. |
| CqerZg2.LogLink | pystoned/utils/CQERZG2.py:175-194 | Row `i` is keyed `i` and is exactly observation `i`'s frontier definition under multiplicative error. It is unsupported for additive error. |
| CqerZg2.LogLinkHolds | pystoned/utils/CQERZG2.py:177-189 | A frontier definition holds iff `frontier[i]` is `beta[i]·x[i] - 1`, plus `alpha[i]` exactly under VRS. |
| CqerZg2.LogLinkVars | pystoned/utils/CQERZG2.py:175-194 | The frontier definition involves the observation's slopes, and its intercept exactly under VRS. |
| CqerZg2.NextW | pystoned/utils/CQERZG2.py:206-237 | The successor `I.nextw(i)` is `(i + 1) mod n`. |
| CqerZg2.NextWRing | pystoned/utils/CQERZG2.py:206-237 | The successor map is a bijection of `I`: injective, and every index has a predecessor. |
| CqerZg2.Afriat | pystoned/utils/CQERZG2.py:196-240 | One cut per observation, against its successor and at its own covariates. It drops intercepts under CRS and is unsupported for additive error under CRS. |
| CqerZg2.SweetRows | pystoned/utils/CQERZG2.py:242-293 | One cut per gated off-diagonal pair, keyed by the pair, with the Afriat shape at `x[i]` and `h` in place of the successor. There are as many cuts as true off-diagonal gate entries. |
| CqerZg2.SweetSpot | pystoned/utils/CQERZG2.py:242-293 | The sweet-spot family is unsupported exactly for additive error under CRS. Otherwise it holds the gated cuts. |
| CqerZg2.FamiliesPresent | pystoned/utils/CQERZG2.py:76-96 | The log link exists exactly for multiplicative error. The two sweet-spot families apply the same rule to `Cutactive` and to `Active`. |
| CqerZg2.BuildCqr | pystoned/utils/CQERZG2.py:12-100 | Fails exactly when promoting `x` or `z` fails. Otherwise it has the dimensions of the promoted data, the variable layout, the one active quantile objective, and the families. |
| CqerZg2.BuildCer | pystoned/utils/CQERZG2.py:366-392 | The quantile model with its objective deactivated but kept, plus the active squared objective. Exactly one objective is active. |
| CqerZg2.Optimize | pystoned/utils/CQERZG2.py:102-129 | Local multiplicative returns False and leaves the status unchanged. Any other call solves with mosek (additive) or knitro (multiplicative) and sets the status to 1. |
| CqerZg2.RetrieveEstimates | pystoned/utils/CQERZG2.py:348-363 | A remote solve is triggered exactly while the status is 0. Afterwards the model counts as optimised. |
| CqerZg2.SolveAtMostOnce | pystoned/utils/CQERZG2.py:348-363 | Retrieving estimates twice triggers at most one solve. |
| CqerZg2.RemoteChoiceAgrees | pystoned/utils/CQERZG2.py:118-129 | The remote solver `optimize` picks is the one `optimize_model` picks for a valid address and no explicit solver. |
| PCqer.Lipschitz | pystoned/pCQER.py:66-72 | Row `i` is keyed `i` and is exactly observation `i`'s cap `sum(beta[i, j] ** 2) <= eta ** 2`. |
| PCqer.EvalSlopeSquares | pystoned/pCQER.py:69-70 | The cap's left-hand side evaluates to the squared slope norm, summed coordinate by coordinate. |
| PCqer.LipschitzHolds | pystoned/pCQER.py:66-72 | A cap holds iff observation `i`'s squared slope norm is at most `eta ** 2`. |
| PCqer.LipschitzVars | pystoned/pCQER.py:69-70 | Observation `i`'s cap involves exactly its own slopes. |
| PCqer.PenalisedObjectiveVars | pystoned/pCQER.py:45-62 | The penalised objectives involve every split residual and every slope, and nothing else. |
| PCqer.Penalize | pystoned/pCQER.py:25-43 | Codes 1 and 2 deactivate the base objective and add the L1 or L2 penalised one. Code 3 keeps the objectives and adds the Lipschitz caps. Any other code raises. Every accepted code leaves exactly one objective active. |
| Icnls.Layout | pystoned/ICNLS.py:40-43 | `a` and `e` are free, and `b` and `f` are non-negative. |
| Icnls.Gate | pystoned/ICNLS.py:70 | A pair may be used exactly when its weight `p[i][h]` is non-zero. |
| Icnls.Concav | pystoned/ICNLS.py:65-90 | A cut for pair `(i, h)` exists exactly when `i != h` and `p[i][h] != 0`. There is one cut per such pair, and each is `p[i][i]` times `i`'s hyperplane compared with `p[i][h]` times `h`'s, both at `x[i]`. |
| Icnls.Reg | pystoned/ICNLS.py:57-61 | One regression equation per observation. |
| Icnls.Qreg | pystoned/ICNLS.py:104-107 | One log-transformed equation per observation. |
| Icnls.Qlog | pystoned/ICNLS.py:109-113 | One frontier definition per observation. |
| Icnls.Families | pystoned/ICNLS.py:46-187 | Additive + VRS gives `reg` (and `concav` for a known `func`). Multiplicative + VRS or CRS gives `qreg` and `qlog` (and `qconcav`), with intercepts only under VRS. Every other combination gives nothing. |
| Icnls.IcnlsAsWritten | pystoned/ICNLS.py:12-189 | A number for `x`, or an empty `x`, fails at `x[0]`. A flat `x` fails with a TypeError whenever a built family reads covariates. Otherwise the model has `m` inputs, the objective `sum(e[i] * e[i])` exactly for `crt` "addi" or "mult", and exactly the families the switches select, built from `x`. |
| Icnls.Icnls | pystoned/ICNLS.py:12-189 | Corrected builder: only a number or an empty `x` fails. A flat `x` gives one input and the families built from its column. Wherever the source succeeds, the result is the same. |
| Icnls.FlatInputsRejected | pystoned/ICNLS.py:24-27 | With one observation and a flat `x`, additive VRS raises a TypeError as written. The corrected builder gives `y[0] == a[0] + b[0, 0] * x[0] + e[0]`. |
| Icnls.RegResidual | pystoned/ICNLS.py:57-59 | A regression equation holds exactly when `e[i]` is `y[i]` minus the observation's hyperplane at its own inputs. |
| Icnls.QregResidual | pystoned/ICNLS.py:104-105 | A log-transformed regression equation holds iff `e[i] == log(y[i]) - log(f[i] + 1)`. |
| Icnls.QlogHolds | pystoned/ICNLS.py:109-111 | A frontier definition holds iff `f[i]` is the observation's hyperplane at `x[i]` minus 1, with `a[i]` only when intercepts are kept (dropped under CRS at lines 153-155). |
| Icnls.UnitWeightsGiveAfriatCut | pystoned/ICNLS.py:65-73 | With unit weights, a concavity cut holds exactly when the Afriat cut of `i` against `h` does. |
| Icnls.ConcavVars | pystoned/ICNLS.py:65-187 | A concavity cut involves both observations' slopes, and both intercepts exactly when intercepts are kept. |
| Icnls.QlogVars | pystoned/ICNLS.py:109-157 | The frontier definition involves the slopes, and the intercept exactly under VRS. |
| Icnls.QregVars | pystoned/ICNLS.py:104-107 | The log-transformed equation involves only the frontier and the residual. |
| Icnls.NoInterceptUnderCrs | pystoned/ICNLS.py:145-187 | Under multiplicative error and CRS, no constraint mentions any intercept. |

## Left out

- Solving itself is not modelled: `SolverFactory`, NEOS, the solver's result and `problem_status`. Solver availability is a boolean parameter of `Tools.OptimizeModel`.
- Side effects are not modelled: `environ['NEOS_EMAIL']` and the `print` messages.
- `PyList` stands for Python values: `Scalar` is an `int` or `float`, and `Flat` and `Nested` are Python lists. The validators of `tools.py` pass their data through `trans_list`, so there a numpy array acts as the `Flat` or `Nested` list its `tolist()` returns. A numpy scalar is not represented. The builders index their arguments directly. In ICNLS a two-dimensional numpy array acts as `Nested`. This also leaves out numpy's rejection of ragged arrays in the `asarray(...).shape` checks. A width is always the width of row 0.
- `OPT_LOCAL` and `OPT_DEFAULT` come from `pystoned/constant.py`, which is not part of this model. They are the tokens `EmailArg.OptLocal` and `SolverArg.DefaultSolver`.
- `cet`, `fun` and `rts` values outside their two constants are excluded by the `Config` enumerations. For an unknown `fun`, the source raises nothing when it builds the rule. It fails with a `NameError` on the free variable `_CQRZG2__operator` only when Pyomo later calls the Afriat or sweet-spot rule. Under additive error with CRS those factories return `False` first, so nothing fails. Neither path is modelled. ICNLS keeps its switches as strings, so its fall-through branches are modelled.
- `log` is uninterpreted, and `y`, `x`, `tau`, `eta` are exact reals. Floating point and `log` of non-positive data are not modelled.
- The base models `CQER.CQR` and `CQER.CER` of `pCQR` and `pCER` come from `pystoned/CQER.py`, which is not part of this model. `PCqer.Penalize` works on any base formulation whose only active objective has the expected name.
- `get_alpha` and `get_beta` return values, including the pandas pivot in `get_beta`, are not modelled. Only the solve they trigger is.
- `assert_contextual_variable` and `assert_undesirable_output` are not modelled: they are plain `None` checks.
- Tools.EmailMatchesIffPattern: a Python `$` also matches before a final newline. Here it means the end of the string only.
- Tools.AssertValidBasicData: the multi-output check on `y` width (tools.py:84-86) can never fire after `to_1d_list` on regular data, and is not modelled.
- Tools.AssertValidDirectionalData: when `b` is absent, `gb` is returned untouched by the source. The model does not carry it.
- CqerZg2.BuildCqr: requires `x` and `z` to have at least as many rows as `y` has entries, the promoted rows to be at least as wide as row 0, and both gate matrices to cover `I x I`. Fewer rows, a shorter row or a smaller matrix would raise an IndexError in the source.
- CqerZg2.Promote: a flat `x` or `z` is promoted the way a one-dimensional numpy array is (CQERZG2.py:35-43). Two other inputs are not modelled. A flat Python list raises an AttributeError at `.tolist()`. A two-dimensional numpy array, whose rows are not Python lists, is wrapped a second time to width 1 and then fails in the first rule that multiplies by `x[i][j]`.
- Icnls.Icnls: requires the rows and the weight matrix that the chosen branch reads to be large enough. A shorter one would raise an IndexError in the source.
- Icnls.IcnlsAsWritten: a one-dimensional numpy `x` is not modelled. Its elements are not Python `int` or `float`, so `m = len(x[0])` raises a TypeError at ICNLS.py:27 in every branch. `Flat` is a Python list, which takes the `m = 1` branch.
- Icnls.IcnlsAsWritten: carries the same requirement for a list of rows: at least as many rows of `x` and `p` as `y` has entries, each wide enough. A shorter one would raise an IndexError in the source.
- PCqer.Penalize: the source raises for a bad code only after building the base model. Here the base model is an input, so that order does not show.

## Findings

| source | as written | input that shows it | evidently intended | confidence | as-written member | corrected member |
|---|---|---|---|---|---|---|
| pystoned/utils/tools.py:134 | `b_shape[0] != b_shape[0]` compares the row count of `b` with itself, so the check never fires | `y = [[1], [2]]`, `x = [[3], [4]]`, `b = [[5]]`, `gy = gx = gb = [1]` is accepted | reject `b` unless it has as many rows as `y`, as the error message says | high, not executed | Tools.AssertValidDirectionalDataAsWritten | Tools.AssertValidDirectionalData |
| pystoned/ICNLS.py:24-27 | a flat `x` sets `m = 1`, but the rules then subscript `x[i][j]` on a number | `icnls([1.0], [2.0], [[1.0]], "addi", "prod", "vrs")` raises a TypeError | a flat `x` is one input per observation, as the `m = 1` branch intends | high, not executed | Icnls.IcnlsAsWritten | Icnls.Icnls |

=== FILE: config.dfy ===
/** The configuration enumerations shared by every formulation. */
module Config {

  /** Composite error term: CET_ADDI or CET_MULT. */
  datatype Cet = Additive | Multiplicative

  /** Frontier direction: FUN_PROD or FUN_COST. */
  datatype Fun = Production | Cost

  /** Returns to scale: RTS_VRS or RTS_CRS. */
  datatype Rts = Vrs | Crs

  datatype Setting = Setting(cet: Cet, fun: Fun, rts: Rts)

  /** The rule factories build a rule for every combination except additive
      error under constant returns to scale, where they return `False`. */
  predicate Implemented(s: Setting) {
    !(s.cet == Additive && s.rts == Crs)
  }

  /** Under constant returns to scale the hyperplanes carry no intercept. */
  predicate HasIntercept(s: Setting) {
    s.rts == Vrs
  }
}

=== FILE: cqerzg2.dfy ===
/** The CNLS+G formulation of `pystoned/utils/CQERZG2.py`: convex quantile
    regression (CQRZG2) and its expectile variant (CERZG2), built from the
    Afriat ring and the two sweet-spot cut families. */
module CqerZg2 {
  import opened Outcomes
  import opened Config
  import opened Expr
  import opened Hyperplanes
  import opened Pairs
  import opened Formulation
  import opened Losses
  import Tools

  /** The sample once `x` and `z` have been promoted to rows. */
  datatype Sample = Sample(y: seq<real>, x: seq<seq<real>>, z: seq<seq<real>>)

  /** A flat `x` or `z` becomes one-element rows; rows are kept as given.
      The source reaches that flat branch through `tolist()`, so the input
      it means there is a one-dimensional numpy array. */
  function Promote(y: seq<real>, x: Tools.PyList, z: Tools.PyList): (r: Result<Sample>)
    ensures r.Ok? <==> Tools.ToTwoD(x).Ok? && Tools.ToTwoD(z).Ok?
    ensures r.Ok? ==> r.value.y == y && |r.value.x| > 0 && |r.value.z| > 0
    ensures r.Ok? && x.Flat? ==> |r.value.x| == |x.vs| && forall i :: 0 <= i < |x.vs| ==> r.value.x[i] == [x.vs[i]]
    ensures r.Ok? && x.Nested? ==> r.value.x == x.rows
    ensures r.Ok? && z.Flat? ==> |r.value.z| == |z.vs| && forall i :: 0 <= i < |z.vs| ==> r.value.z[i] == [z.vs[i]]
    ensures r.Ok? && z.Nested? ==> r.value.z == z.rows
  {
    var x2 :- Tools.ToTwoD(x);
    var z2 :- Tools.ToTwoD(z);
    Ok(Sample(y, x2, z2))
  }

  /** `I = range(len(y))`, `J = range(len(x[0]))`, `K = range(len(z[0]))`. */
  function DimsOf(s: Sample): Dims
    requires |s.x| > 0 && |s.z| > 0
  {
    Dims(|s.y|, |s.x[0]|, |s.z[0]|)
  }

  /** Every observation has a row of `x` and `z` at least as wide as row 0:
      the indexing `x[i][j]` and `z[i][k]` the rules do. */
  predicate Shaped(s: Sample)
  {
    && |s.x| > 0 && |s.z| > 0 && |s.x| >= |s.y| && |s.z| >= |s.y|
    && (forall i :: 0 <= i < |s.y| ==> |s.x[i]| >= |s.x[0]| && |s.z[i]| >= |s.z[0]|)
  }

  /** Additionally both gate matrices cover `I x I`. */
  predicate WellShaped(s: Sample, cut: seq<seq<bool>>, act: seq<seq<bool>>)
  {
    Shaped(s) && Covers(cut, |s.y|) && Covers(act, |s.y|)
  }

  /** The covariates `x[i][j]` for `j` in `J`. */
  function Point(s: Sample, i: nat): (pt: seq<real>)
    requires Shaped(s) && i < |s.y|
    ensures |pt| == |s.x[0]|
  {
    s.x[i][..|s.x[0]|]
  }

  /** `sum(lamda[k] * zi[k] for k in K)`. */
  function ContextTerm(zi: seq<real>): Expr
  {
    SumOf(seq(|zi|, k requires 0 <= k < |zi| => Mul(Var(Lamda(k)), Const(zi[k]))))
  }

  function Context(s: Sample, i: nat): Expr
    requires Shaped(s) && i < |s.y|
  {
    ContextTerm(s.z[i][..|s.z[0]|])
  }

  ghost function LamdaSet(width: nat): set<VarRef>
  {
    set k | 0 <= k < width :: Lamda(k)
  }

  lemma ContextTermVars(zi: seq<real>)
    ensures Vars(ContextTerm(zi)) == LamdaSet(|zi|)
  {
    var ts := seq(|zi|, k requires 0 <= k < |zi| => Mul(Var(Lamda(k)), Const(zi[k])));
    VarsSumOf(ts);
    forall v | v in Vars(ContextTerm(zi))
      ensures v in LamdaSet(|zi|)
    {
      var k :| 0 <= k < |ts| && v in Vars(ts[k]);
      assert Vars(ts[k]) == {Lamda(k)};
    }
    forall v | v in LamdaSet(|zi|)
      ensures v in Vars(ContextTerm(zi))
    {
      assert Vars(ts[v.k]) == {v};
    }
  }

  // ---------------------------------------------------------------------
  // Variable layout
  // ---------------------------------------------------------------------

  /** alpha, beta, lamda, epsilon, epsilon_plus, epsilon_minus and frontier,
      the last allocated whatever the composite error term; beta, the two
      residual parts and frontier are bounded below by 0. */
  function Layout(): (r: map<Kind, Bound>)
    ensures r.Keys == {KAlpha, KBeta, KLamda, KEpsilon, KEpsilonPlus, KEpsilonMinus, KFrontier}
    ensures forall k :: k in r ==> (r[k] == NonNegative <==> k in {KBeta, KEpsilonPlus, KEpsilonMinus, KFrontier})
  {
    map[KAlpha := Free, KBeta := NonNegative, KLamda := Free, KEpsilon := Free,
        KEpsilonPlus := NonNegative, KEpsilonMinus := NonNegative, KFrontier := NonNegative]
  }

  // ---------------------------------------------------------------------
  // Constraint families
  // ---------------------------------------------------------------------

  /** `epsilon[i] == epsilon_plus[i] - epsilon_minus[i]`. */
  function DecompositionRow(i: nat): Constraint
  {
    Rel(Eq, Var(Epsilon(i)), Sub(Var(EpsilonPlus(i)), Var(EpsilonMinus(i))))
  }

  /** `__error_decomposition`: one decomposition equation per observation. */
  function ErrorDecomposition(n: nat): (b: Body)
    ensures b.Built? && |b.rows| == n
    ensures forall i :: 0 <= i < n ==> b.rows[i] == Row(At(i), DecompositionRow(i))
  {
    Built(seq(n, i requires 0 <= i < n => Row(At(i), DecompositionRow(i))))
  }

  /** A decomposition equation holds exactly when the residual is the
      positive part minus the negative part. */
  lemma DecompositionHolds(i: nat, env: VarRef -> real, ln: real -> real)
    ensures Holds(DecompositionRow(i), env, ln) <==> env(Epsilon(i)) == env(EpsilonPlus(i)) - env(EpsilonMinus(i))
  {
    assert Eval(Sub(Var(EpsilonPlus(i)), Var(EpsilonMinus(i))), env, ln) == env(EpsilonPlus(i)) - env(EpsilonMinus(i));
  }

  /** At any point that satisfies the decomposition rows and the variable
      bounds, each residual is the difference of its two non-negative parts. */
  lemma ErrorDecompositionRoundTrip(n: nat, env: VarRef -> real, ln: real -> real)
    requires forall k :: 0 <= k < n ==> Holds(ErrorDecomposition(n).rows[k].con, env, ln)
    requires InBounds(Layout(), env)
    ensures forall i :: 0 <= i < n ==>
              && env(Epsilon(i)) == env(EpsilonPlus(i)) - env(EpsilonMinus(i))
              && env(EpsilonPlus(i)) >= 0.0 && env(EpsilonMinus(i)) >= 0.0
  {
    var layout := Layout();
    assert layout[KEpsilonPlus] == NonNegative && layout[KEpsilonMinus] == NonNegative;
    forall i | 0 <= i < n
      ensures env(Epsilon(i)) == env(EpsilonPlus(i)) - env(EpsilonMinus(i))
    {
      var c := ErrorDecomposition(n).rows[i].con;
      assert c == DecompositionRow(i);
      assert Holds(c, env, ln);
      DecompositionHolds(i, env, ln);
    }
    forall i | 0 <= i < n
      ensures env(EpsilonPlus(i)) >= 0.0 && env(EpsilonMinus(i)) >= 0.0
    {
      assert KindOf(EpsilonPlus(i)) == KEpsilonPlus;
      assert KindOf(EpsilonMinus(i)) == KEpsilonMinus;
    }
  }

  /** The regression equation of observation `i`. */
  function RegressionRow(st: Setting, s: Sample, i: nat): Constraint
    requires Shaped(s) && i < |s.y|
  {
    match st.cet
    case Additive =>
      Rel(Eq, Const(s.y[i]), Add(Add(Hyper(i, Point(s, i), true), Context(s, i)), Var(Epsilon(i))))
    case Multiplicative =>
      Rel(Eq, Log(Const(s.y[i])), Add(Add(Log(Add(Var(Frontier(i)), Const(1.0))), Context(s, i)), Var(Epsilon(i))))
  }

  /** `__regression_rule`: one equation per observation, except for
      additive error under constant returns to scale, where the factory
      returns `False`. */
  function Regression(st: Setting, s: Sample): (b: Body)
    requires Shaped(s)
    ensures b.Unsupported? <==> !Implemented(st)
    ensures b.Built? ==> |b.rows| == |s.y|
    ensures b.Built? ==> forall i :: 0 <= i < |s.y| ==> b.rows[i] == Row(At(i), RegressionRow(st, s, i))
  {
    if !Implemented(st) then Unsupported
    else Built(seq(|s.y|, i requires 0 <= i < |s.y| => Row(At(i), RegressionRow(st, s, i))))
  }

  /** The additive equation holds exactly when `epsilon[i]` is `y[i]` minus
      the observation's hyperplane at `x[i]` and its contextual term; the
      multiplicative one exactly when it is `log(y[i])` minus
      `log(frontier[i] + 1)` and the contextual term. */
  lemma RegressionResidual(st: Setting, s: Sample, i: nat, env: VarRef -> real, ln: real -> real)
    requires Shaped(s) && i < |s.y|
    ensures st.cet == Additive ==>
              (Holds(RegressionRow(st, s, i), env, ln)
               <==> env(Epsilon(i)) == s.y[i] - Eval(Hyper(i, Point(s, i), true), env, ln) - Eval(Context(s, i), env, ln))
    ensures st.cet == Multiplicative ==>
              (Holds(RegressionRow(st, s, i), env, ln)
               <==> env(Epsilon(i)) == ln(s.y[i]) - ln(env(Frontier(i)) + 1.0) - Eval(Context(s, i), env, ln))
  {
    var ctx := Context(s, i);
    var eps := Var(Epsilon(i));
    match st.cet
    case Additive =>
      var hyper := Hyper(i, Point(s, i), true);
      assert RegressionRow(st, s, i) == Rel(Eq, Const(s.y[i]), Add(Add(hyper, ctx), eps));
      assert Eval(Add(Add(hyper, ctx), eps), env, ln) == Eval(hyper, env, ln) + Eval(ctx, env, ln) + env(Epsilon(i));
    case Multiplicative =>
      var fr := Log(Add(Var(Frontier(i)), Const(1.0)));
      assert RegressionRow(st, s, i) == Rel(Eq, Log(Const(s.y[i])), Add(Add(fr, ctx), eps));
      assert Eval(Add(Var(Frontier(i)), Const(1.0)), env, ln) == env(Frontier(i)) + 1.0;
      assert Eval(fr, env, ln) == ln(env(Frontier(i)) + 1.0);
      assert Eval(Log(Const(s.y[i])), env, ln) == ln(s.y[i]);
      assert Eval(Add(Add(fr, ctx), eps), env, ln) == Eval(fr, env, ln) + Eval(ctx, env, ln) + env(Epsilon(i));
  }

  /** The additive equation involves the observation's intercept, slopes,
      all contextual coefficients and its residual; the multiplicative one
      replaces intercept and slopes by the frontier variable. */
  lemma RegressionVars(st: Setting, s: Sample, i: nat)
    requires Shaped(s) && i < |s.y|
    ensures st.cet == Additive ==>
              ConstraintVars(RegressionRow(st, s, i))
              == {Alpha(i), Epsilon(i)} + BetaRow(i, |s.x[0]|) + LamdaSet(|s.z[0]|)
    ensures st.cet == Multiplicative ==>
              ConstraintVars(RegressionRow(st, s, i)) == {Frontier(i), Epsilon(i)} + LamdaSet(|s.z[0]|)
  {
    var hyper := Hyper(i, Point(s, i), true);
    var ctx := Context(s, i);
    HyperVars(i, Point(s, i), true);
    ContextTermVars(s.z[i][..|s.z[0]|]);
    assert Vars(ctx) == LamdaSet(|s.z[0]|);
    var eps := Var(Epsilon(i));
    assert Vars(eps) == {Epsilon(i)};
    match st.cet
    case Additive =>
      var rhs := Add(Add(hyper, ctx), eps);
      assert RegressionRow(st, s, i) == Rel(Eq, Const(s.y[i]), rhs);
      assert Vars(Add(hyper, ctx)) == Vars(hyper) + Vars(ctx);
      assert Vars(rhs) == Vars(hyper) + Vars(ctx) + {Epsilon(i)};
    case Multiplicative =>
      var fr := Add(Var(Frontier(i)), Const(1.0));
      assert Vars(Var(Frontier(i))) == {Frontier(i)};
      assert Vars(fr) == {Frontier(i)};
      assert Vars(Log(fr)) == {Frontier(i)};
      var rhs := Add(Add(Log(fr), ctx), eps);
      assert RegressionRow(st, s, i) == Rel(Eq, Log(Const(s.y[i])), rhs);
      assert Vars(Log(Const(s.y[i]))) == {};
      assert Vars(Add(Log(fr), ctx)) == {Frontier(i)} + Vars(ctx);
      assert Vars(rhs) == {Frontier(i)} + Vars(ctx) + {Epsilon(i)};
  }

  /** The log-link equation of observation `i`. */
  function LogRow(st: Setting, s: Sample, i: nat): Constraint
    requires Shaped(s) && i < |s.y|
  {
    Rel(Eq, Var(Frontier(i)), Sub(Hyper(i, Point(s, i), HasIntercept(st)), Const(1.0)))
  }

  /** `__log_rule`: `frontier[i] == alpha[i] + sum(beta x) - 1`, without
      `alpha[i]` under constant returns to scale; only multiplicative error
      has one. */
  function LogLink(st: Setting, s: Sample): (b: Body)
    requires Shaped(s)
    ensures b.Unsupported? <==> st.cet == Additive
    ensures b.Built? ==> |b.rows| == |s.y|
    ensures b.Built? ==> forall i :: 0 <= i < |s.y| ==> b.rows[i] == Row(At(i), LogRow(st, s, i))
  {
    if st.cet == Additive then Unsupported
    else Built(seq(|s.y|, i requires 0 <= i < |s.y| => Row(At(i), LogRow(st, s, i))))
  }

  /** The log link ties the frontier to the slopes, and to the intercept
      exactly under variable returns to scale. */
  lemma LogLinkVars(st: Setting, s: Sample, i: nat)
    requires Shaped(s) && i < |s.y|
    ensures ConstraintVars(LogRow(st, s, i))
            == {Frontier(i)} + (if HasIntercept(st) then {Alpha(i)} else {}) + BetaRow(i, |s.x[0]|)
  {
    var hyper := Hyper(i, Point(s, i), HasIntercept(st));
    HyperVars(i, Point(s, i), HasIntercept(st));
    assert Vars(Sub(hyper, Const(1.0))) == Vars(hyper);
    assert ConstraintVars(LogRow(st, s, i)) == {Frontier(i)} + Vars(hyper);
  }

  /** A log-link equation holds exactly when the frontier variable is the
      observation's hyperplane at `x[i]` minus 1, with the intercept only
      under variable returns to scale. */
  lemma LogLinkHolds(st: Setting, s: Sample, i: nat, env: VarRef -> real, ln: real -> real)
    requires Shaped(s) && i < |s.y|
    ensures Holds(LogRow(st, s, i), env, ln)
            <==> env(Frontier(i)) == Eval(Hyper(i, Point(s, i), HasIntercept(st)), env, ln) - 1.0
  {
    var hyper := Hyper(i, Point(s, i), HasIntercept(st));
    assert LogRow(st, s, i) == Rel(Eq, Var(Frontier(i)), Sub(hyper, Const(1.0)));
    assert Eval(Sub(hyper, Const(1.0)), env, ln) == Eval(hyper, env, ln) - 1.0;
  }

  /** `I.nextw(i)`: the successor of `i` in `range(n)`, wrapping to 0. */
  function NextW(i: nat, n: nat): (r: nat)
    requires i < n
    ensures r < n && r == (i + 1) % n
  {
    if i + 1 == n then
      assert (i + 1) % n == 0;
      0
    else
      assert (i + 1) % n == i + 1;
      i + 1
  }

  /** The predecessor on the ring: 0 is preceded by the last index. */
  function PrevW(j: nat, n: nat): nat
    requires j < n
  {
    if j == 0 then n - 1 else j - 1
  }

  /** The successor map is a ring: no two indices share a successor, and
      every index is the successor of its predecessor. */
  lemma NextWRing(n: nat)
    ensures forall i1, i2 :: 0 <= i1 < n && 0 <= i2 < n && NextW(i1, n) == NextW(i2, n) ==> i1 == i2
    ensures forall j :: 0 <= j < n ==> PrevW(j, n) < n && NextW(PrevW(j, n), n) == j
  {
  }

  /** `__afriat_rule`: observation `i`'s hyperplane against its successor's,
      both at `x[i]`; `<=` for production, `>=` for cost; no intercepts under
      constant returns to scale; `False` for additive error there. */
  function Afriat(st: Setting, s: Sample): (b: Body)
    requires Shaped(s)
    ensures b.Unsupported? <==> !Implemented(st)
    ensures b.Built? ==> |b.rows| == |s.y|
    ensures b.Built? ==> forall i :: 0 <= i < |s.y| ==>
              b.rows[i] == Row(At(i), Cut(OpFor(st.fun), i, NextW(i, |s.y|), Point(s, i), HasIntercept(st)))
  {
    if !Implemented(st) then Unsupported
    else
      var n := |s.y|;
      Built(seq(n, i requires 0 <= i < n =>
        Row(At(i), Cut(OpFor(st.fun), i, NextW(i, n), Point(s, i), HasIntercept(st)))))
  }

  /** One cut per generated pair `(i, h)`, keyed by the pair. */
  function CutRows(st: Setting, s: Sample, ps: seq<(nat, nat)>): (rows: seq<Row>)
    requires Shaped(s) && forall k :: 0 <= k < |ps| ==> ps[k].0 < |s.y|
    ensures |rows| == |ps|
    ensures forall k :: 0 <= k < |ps| ==>
              rows[k] == Row(Pair(ps[k].0, ps[k].1), Cut(OpFor(st.fun), ps[k].0, ps[k].1, Point(s, ps[k].0), HasIntercept(st)))
  {
    seq(|ps|, k requires 0 <= k < |ps| =>
      Row(Pair(ps[k].0, ps[k].1), Cut(OpFor(st.fun), ps[k].0, ps[k].1, Point(s, ps[k].0), HasIntercept(st))))
  }

  /** The cuts of the gated off-diagonal pairs, in row-major order. */
  function SweetRows(st: Setting, s: Sample, m: seq<seq<bool>>): (rows: seq<Row>)
    requires Shaped(s) && Covers(m, |s.y|)
    ensures |rows| == |OffDiagonalTrue(m, |s.y|)|
    ensures forall i: nat, h: nat ::
              Pair(i, h) in Keys(rows) <==> i < |s.y| && h < |s.y| && i != h && m[i][h]
    ensures forall k :: 0 <= k < |rows| ==>
              && rows[k].key.Pair? && rows[k].key.i < |s.y|
              && rows[k].con == Cut(OpFor(st.fun), rows[k].key.i, rows[k].key.h,
                                    Point(s, rows[k].key.i), HasIntercept(st))
  {
    var ps := ActivePairs(m, |s.y|);
    assert forall k :: 0 <= k < |ps| ==> ps[k] in ps;
    var rows := CutRows(st, s, ps);
    ActiveKeys(m, |s.y|, rows);
    rows
  }

  /** `__sweet_rule` over the gate matrix `m` (`Cutactive`, or `Active` for
      `__sweet_rule2`): a cut for pair `(i, h)` exactly when the entry is true
      and `i != h`, with the Afriat shape and `h` in place of the successor. */
  function SweetSpot(st: Setting, s: Sample, m: seq<seq<bool>>): (b: Body)
    requires Shaped(s) && Covers(m, |s.y|)
    ensures b.Unsupported? <==> !Implemented(st)
    ensures b.Built? ==> b.rows == SweetRows(st, s, m)
  {
    if !Implemented(st) then Unsupported else Built(SweetRows(st, s, m))
  }

  // ---------------------------------------------------------------------
  // Assembly
  // ---------------------------------------------------------------------

  function Families(st: Setting, s: Sample, cut: seq<seq<bool>>, act: seq<seq<bool>>): map<string, Body>
    requires WellShaped(s, cut, act)
  {
    assert Shaped(s);
    var common := map[ "error_decomposition" := ErrorDecomposition(|s.y|),
                       "regression_rule" := Regression(st, s),
                       "afriat_rule" := Afriat(st, s),
                       "sweet_rule" := SweetSpot(st, s, cut),
                       "sweet_rule2" := SweetSpot(st, s, act) ];
    if st.cet == Multiplicative then common["log_rule" := LogLink(st, s)] else common
  }

  /** `CQRZG2.__init__`: promote the data, declare the variables, add the
      quantile objective and every constraint family; the log-link family
      only for multiplicative error. */
  function BuildCqr(y: seq<real>, x: Tools.PyList, z: Tools.PyList, tau: real,
                    cut: seq<seq<bool>>, act: seq<seq<bool>>, st: Setting): (r: Result<Formulation>)
    requires Promote(y, x, z).Ok? ==> WellShaped(Promote(y, x, z).value, cut, act)
    ensures r.Ok? <==> Promote(y, x, z).Ok?
    ensures r.Err? ==> r.error == (if Tools.ToTwoD(x).Err? then Tools.ToTwoD(x).error else Tools.ToTwoD(z).error)
    ensures r.Ok? ==>
              var s := Promote(y, x, z).value;
              && r.value.dims == DimsOf(s)
              && r.value.vars == Layout()
              && r.value.objectives == [Objective("objective", QuantileLoss(tau, |y|), true)]
              && r.value.families == Families(st, s, cut, act)
  {
    var s :- Promote(y, x, z);
    Ok(Formulation(DimsOf(s), Layout(), [Objective("objective", QuantileLoss(tau, |y|), true)],
                   Families(st, s, cut, act)))
  }

  /** Which families a model has and which of them its rule factories could
      not build: the log link exists exactly for multiplicative error, every
      family but the error decomposition is unsupported exactly for additive
      error under constant returns to scale, and the two sweet-spot families
      are the same rule applied to `Cutactive` and to `Active` separately. */
  lemma FamiliesPresent(st: Setting, s: Sample, cut: seq<seq<bool>>, act: seq<seq<bool>>)
    requires WellShaped(s, cut, act)
    ensures var fs := Families(st, s, cut, act);
            && ("log_rule" in fs <==> st.cet == Multiplicative)
            && fs.Keys >= {"error_decomposition", "regression_rule", "afriat_rule", "sweet_rule", "sweet_rule2"}
            && fs["error_decomposition"].Built?
            && (fs["regression_rule"].Unsupported? <==> !Implemented(st))
            && (fs["afriat_rule"].Unsupported? <==> !Implemented(st))
            && (fs["sweet_rule"].Unsupported? <==> !Implemented(st))
            && (fs["sweet_rule2"].Unsupported? <==> !Implemented(st))
            && fs["sweet_rule"] == SweetSpot(st, s, cut)
            && fs["sweet_rule2"] == SweetSpot(st, s, act)
  {
    assert Shaped(s);
  }

  /** `CERZG2.__init__`: the CQRZG2 model with its quantile objective
      deactivated (kept, inactive) and the squared expectile objective added,
      so exactly one objective is active. */
  function BuildCer(y: seq<real>, x: Tools.PyList, z: Tools.PyList, tau: real,
                    cut: seq<seq<bool>>, act: seq<seq<bool>>, st: Setting): (r: Result<Formulation>)
    requires Promote(y, x, z).Ok? ==> WellShaped(Promote(y, x, z).value, cut, act)
    ensures r.Ok? <==> BuildCqr(y, x, z, tau, cut, act, st).Ok?
    ensures r.Ok? ==>
              var base := BuildCqr(y, x, z, tau, cut, act, st).value;
              && r.value.families == base.families && r.value.vars == base.vars
              && ActiveCount(r.value.objectives) == 1
              && r.value.objectives == [ Objective("objective", QuantileLoss(tau, |y|), false),
                                         Objective("squared_objective", ExpectileLoss(tau, |y|), true) ]
  {
    var base :- BuildCqr(y, x, z, tau, cut, act, st);
    var objs := Deactivate(base.objectives, "objective")
                + [Objective("squared_objective", ExpectileLoss(tau, |y|), true)];
    ReplaceObjective(base.objectives, "objective", Objective("squared_objective", ExpectileLoss(tau, |y|), true));
    Ok(base.(objectives := objs))
  }

  // ---------------------------------------------------------------------
  // Solve status
  // ---------------------------------------------------------------------

  /** What a call to `optimize` did. */
  datatype SolveCall =
    | NoCall                               // nothing to do
    | NotYetAvailable                      // local multiplicative: returns False
    | SolveWith(remote: bool, solver: string)

  datatype Optimized = Optimized(call: SolveCall, status: int)

  /** `optimize(remote)`: locally, additive models go to mosek and
      multiplicative ones are not yet available; remotely (NEOS), mosek for
      additive and knitro for multiplicative.  A solve sets the status to 1. */
  function Optimize(cet: Cet, status: int, remote: bool): (o: Optimized)
    ensures o.call.NotYetAvailable? <==> !remote && cet == Multiplicative
    ensures o.call.NotYetAvailable? ==> o.status == status
    ensures !o.call.NotYetAvailable? ==>
              o == Optimized(SolveWith(remote, if cet == Additive then "mosek" else "knitro"), 1)
  {
    if !remote then
      match cet
      case Additive => Optimized(SolveWith(false, "mosek"), 1)
      case Multiplicative => Optimized(NotYetAvailable, status)
    else
      Optimized(SolveWith(true, if cet == Additive then "mosek" else "knitro"), 1)
  }

  /** `get_alpha` / `get_beta`: solve (remotely, the default) only while the
      status is still 0, then read the values. */
  function RetrieveEstimates(cet: Cet, status: int): (o: Optimized)
    ensures o.call.SolveWith? <==> status == 0
    ensures o.call.SolveWith? ==> o.call.remote
    ensures status != 0 ==> o == Optimized(NoCall, status)
    ensures Tools.AssertOptimized(o.status).Ok?
  {
    if status == 0 then Optimize(cet, status, true) else Optimized(NoCall, status)
  }

  /** The solve runs at most once: retrieving again after a retrieval never
      triggers another solve. */
  lemma SolveAtMostOnce(cet: Cet, status: int)
    ensures RetrieveEstimates(cet, RetrieveEstimates(cet, status).status).call == NoCall
  {
  }

  /** The remote default solver of `optimize` agrees with the one
      `optimize_model` picks for a valid NEOS address. */
  lemma RemoteChoiceAgrees(cet: Cet, address: string, available: bool)
    requires Tools.EmailPattern(address)
    ensures Tools.OptimizeModel(Tools.Address(address), cet, Tools.DefaultSolver, available)
            == Ok(Tools.SolveRequest(true, Optimize(cet, 0, true).call.solver))
  {
  }
}

=== FILE: expr.dfy ===
/** Symbolic algebraic expressions and relations, standing for the Pyomo
    expressions the rule functions return.  Data values (`y[i]`, `x[i][j]`,
    `tau`, `eta`) are opaque constants and `log` is an uninterpreted symbol. */
module Expr {

  /** Decision variables, indexed by observation `i`, input `j` or
      contextual variable `k`. */
  datatype VarRef =
    | Alpha(i: nat)
    | Beta(i: nat, j: nat)
    | Lamda(k: nat)
    | Epsilon(i: nat)
    | EpsilonPlus(i: nat)
    | EpsilonMinus(i: nat)
    | Frontier(i: nat)

  datatype Expr =
    | Const(c: real)
    | Var(v: VarRef)
    | Add(a: Expr, b: Expr)
    | Sub(a: Expr, b: Expr)
    | Mul(a: Expr, b: Expr)
    | Square(a: Expr)
    | Log(a: Expr)

  /** `==`, `<=` and `>=` between two expressions. */
  datatype RelOp = Eq | AtMost | AtLeast

  datatype Constraint = Rel(op: RelOp, lhs: Expr, rhs: Expr)

  /** Python's built-in `sum`: a left fold starting from 0. */
  function SumOf(ts: seq<Expr>): Expr
  {
    if |ts| == 0 then Const(0.0) else Add(SumOf(ts[..|ts| - 1]), ts[|ts| - 1])
  }

  /** The decision variables an expression mentions. */
  function Vars(e: Expr): set<VarRef>
  {
    match e
    case Const(_) => {}
    case Var(v) => {v}
    case Add(a, b) => Vars(a) + Vars(b)
    case Sub(a, b) => Vars(a) + Vars(b)
    case Mul(a, b) => Vars(a) + Vars(b)
    case Square(a) => Vars(a)
    case Log(a) => Vars(a)
  }

  function ConstraintVars(c: Constraint): set<VarRef>
  {
    Vars(c.lhs) + Vars(c.rhs)
  }

  /** Value of an expression under an assignment `env` of the variables,
      with `ln` standing for the logarithm. */
  function Eval(e: Expr, env: VarRef -> real, ln: real -> real): real
  {
    match e
    case Const(c) => c
    case Var(v) => env(v)
    case Add(a, b) => Eval(a, env, ln) + Eval(b, env, ln)
    case Sub(a, b) => Eval(a, env, ln) - Eval(b, env, ln)
    case Mul(a, b) => Eval(a, env, ln) * Eval(b, env, ln)
    case Square(a) => Eval(a, env, ln) * Eval(a, env, ln)
    case Log(a) => ln(Eval(a, env, ln))
  }

  predicate Holds(c: Constraint, env: VarRef -> real, ln: real -> real)
  {
    var l := Eval(c.lhs, env, ln);
    var r := Eval(c.rhs, env, ln);
    match c.op
    case Eq => l == r
    case AtMost => l <= r
    case AtLeast => l >= r
  }

  /** A sum mentions exactly the variables of its terms. */
  lemma {:induction false} VarsSumOf(ts: seq<Expr>)
    ensures forall v :: v in Vars(SumOf(ts)) <==> exists k :: 0 <= k < |ts| && v in Vars(ts[k])
  {
    if |ts| > 0 {
      var init := ts[..|ts| - 1];
      VarsSumOf(init);
      forall v | v in Vars(SumOf(ts))
        ensures exists k :: 0 <= k < |ts| && v in Vars(ts[k])
      {
        if v in Vars(SumOf(init)) {
          var k :| 0 <= k < |init| && v in Vars(init[k]);
          assert ts[k] == init[k];
        } else {
          assert v in Vars(ts[|ts| - 1]);
        }
      }
      forall v, k | 0 <= k < |ts| && v in Vars(ts[k])
        ensures v in Vars(SumOf(ts))
      {
        if k < |ts| - 1 {
          assert ts[k] == init[k];
        }
      }
    }
  }

  /** The value of an expression depends only on the variables it mentions. */
  lemma {:induction false} EvalDependsOnVars(e: Expr, env1: VarRef -> real, env2: VarRef -> real, ln: real -> real)
    requires forall v :: v in Vars(e) ==> env1(v) == env2(v)
    ensures Eval(e, env1, ln) == Eval(e, env2, ln)
  {
    match e
    case Const(_) =>
    case Var(_) =>
    case Add(a, b) =>
      EvalDependsOnVars(a, env1, env2, ln);
      EvalDependsOnVars(b, env1, env2, ln);
    case Sub(a, b) =>
      EvalDependsOnVars(a, env1, env2, ln);
      EvalDependsOnVars(b, env1, env2, ln);
    case Mul(a, b) =>
      EvalDependsOnVars(a, env1, env2, ln);
      EvalDependsOnVars(b, env1, env2, ln);
    case Square(a) =>
      EvalDependsOnVars(a, env1, env2, ln);
    case Log(a) =>
      EvalDependsOnVars(a, env1, env2, ln);
  }

  /** Likewise for the truth of a constraint. */
  lemma HoldsDependsOnVars(c: Constraint, env1: VarRef -> real, env2: VarRef -> real, ln: real -> real)
    requires forall v :: v in ConstraintVars(c) ==> env1(v) == env2(v)
    ensures Holds(c, env1, ln) <==> Holds(c, env2, ln)
  {
    EvalDependsOnVars(c.lhs, env1, env2, ln);
    EvalDependsOnVars(c.rhs, env1, env2, ln);
  }
}

=== FILE: formulation.dfy ===
/** The assembled optimisation model: variable declarations, an objective
    slot whose superseded objectives stay present but inactive, and named
    constraint families. */
module Formulation {
  import opened Expr
  import opened Pairs

  /** The variable families a model declares. */
  datatype Kind = KAlpha | KBeta | KLamda | KEpsilon | KEpsilonPlus | KEpsilonMinus | KFrontier

  /** `bounds=(0.0, None)` or no bounds. */
  datatype Bound = Free | NonNegative

  function KindOf(v: VarRef): Kind
  {
    match v
    case Alpha(_) => KAlpha
    case Beta(_, _) => KBeta
    case Lamda(_) => KLamda
    case Epsilon(_) => KEpsilon
    case EpsilonPlus(_) => KEpsilonPlus
    case EpsilonMinus(_) => KEpsilonMinus
    case Frontier(_) => KFrontier
  }

  /** The sizes of the index sets I, J and K. */
  datatype Dims = Dims(n: nat, width: nat, contexts: nat)

  /** The index of a generated constraint: `(i)` or `(i, h)`. */
  datatype Key = At(i: nat) | Pair(i: nat, h: nat)

  datatype Row = Row(key: Key, con: Constraint)

  /** What a rule factory produced: the rows it did not skip, or `False`. */
  datatype Body = Built(rows: seq<Row>) | Unsupported

  datatype Objective = Objective(name: string, expr: Expr, active: bool)

  /** The variable families with their bounds, the objectives in the order
      they were added, and the constraint families by component name. */
  datatype Formulation = Formulation(dims: Dims, vars: map<Kind, Bound>, objectives: seq<Objective>,
                                     families: map<string, Body>)

  function Keys(rows: seq<Row>): seq<Key>
  {
    seq(|rows|, k requires 0 <= k < |rows| => rows[k].key)
  }

  /** An assignment respects the declared lower bounds. */
  ghost predicate InBounds(vars: map<Kind, Bound>, env: VarRef -> real)
  {
    forall v :: KindOf(v) in vars && vars[KindOf(v)] == NonNegative ==> env(v) >= 0.0
  }

  /** Rows keyed by a sequence of pairs carry exactly those pairs as keys. */
  lemma PairKeys(rows: seq<Row>, ps: seq<(nat, nat)>)
    requires |rows| == |ps|
    requires forall k :: 0 <= k < |ps| ==> rows[k].key == Pair(ps[k].0, ps[k].1)
    ensures forall i: nat, h: nat :: Pair(i, h) in Keys(rows) <==> (i, h) in ps
  {
    forall i: nat, h: nat | (i, h) in ps
      ensures Pair(i, h) in Keys(rows)
    {
      var k :| 0 <= k < |ps| && ps[k] == (i, h);
      assert Keys(rows)[k] == Pair(i, h);
    }
  }

  /** Rows keyed by the generated pairs of a gate matrix: one row per true
      off-diagonal entry, and a key exactly for each such entry. */
  lemma ActiveKeys(m: seq<seq<bool>>, n: nat, rows: seq<Row>)
    requires Covers(m, n)
    requires |rows| == |ActivePairs(m, n)|
    requires forall k :: 0 <= k < |rows| ==>
               rows[k].key == Pair(ActivePairs(m, n)[k].0, ActivePairs(m, n)[k].1)
    ensures |rows| == |OffDiagonalTrue(m, n)|
    ensures forall i: nat, h: nat :: Pair(i, h) in Keys(rows) <==> i < n && h < n && i != h && m[i][h]
    ensures forall k :: 0 <= k < |rows| ==> rows[k].key.Pair? && rows[k].key.i < n && rows[k].key.h < n
  {
    var ps := ActivePairs(m, n);
    ActivePairsCount(m, n);
    PairKeys(rows, ps);
    forall k | 0 <= k < |rows|
      ensures rows[k].key.i < n && rows[k].key.h < n
    {
      assert ps[k] in ps;
    }
  }

  /** The number of active objectives. */
  function ActiveCount(objs: seq<Objective>): nat
  {
    if |objs| == 0 then 0
    else ActiveCount(objs[..|objs| - 1]) + (if objs[|objs| - 1].active then 1 else 0)
  }

  /** Every active objective carries the given name. */
  predicate OnlyActive(objs: seq<Objective>, name: string)
  {
    forall k :: 0 <= k < |objs| && objs[k].active ==> objs[k].name == name
  }

  /** `objective.deactivate()`: the named objectives stay in the model but
      are no longer active; every other objective is left as it was. */
  function Deactivate(objs: seq<Objective>, name: string): (r: seq<Objective>)
    ensures |r| == |objs|
    ensures forall k :: 0 <= k < |r| ==>
              r[k].name == objs[k].name && r[k].expr == objs[k].expr
              && r[k].active == (objs[k].active && objs[k].name != name)
  {
    seq(|objs|, k requires 0 <= k < |objs| => objs[k].(active := objs[k].active && objs[k].name != name))
  }

  /** No objective is active exactly when the count is zero. */
  lemma {:induction false} ActiveCountZero(objs: seq<Objective>)
    ensures ActiveCount(objs) == 0 <==> forall k :: 0 <= k < |objs| ==> !objs[k].active
  {
    if |objs| > 0 {
      var init := objs[..|objs| - 1];
      ActiveCountZero(init);
      assert forall k :: 0 <= k < |init| ==> init[k] == objs[k];
    }
  }

  /** Deactivating the name of the only active objectives leaves none active,
      and adding one active objective then leaves exactly one. */
  lemma ReplaceObjective(objs: seq<Objective>, name: string, added: Objective)
    requires OnlyActive(objs, name)
    requires added.active
    ensures ActiveCount(Deactivate(objs, name)) == 0
    ensures ActiveCount(Deactivate(objs, name) + [added]) == 1
  {
    var d := Deactivate(objs, name);
    ActiveCountZero(d);
    assert (d + [added])[..|d + [added]| - 1] == d;
  }
}

=== FILE: hyperplanes.dfy ===
/** The supporting-hyperplane terms shared by the regression, log-link,
    Afriat, sweet-spot and concavity rules. */
module Hyperplanes {
  import opened Expr
  import opened Config

  /** `sum(beta[h, j] * pt[j] for j in J)`. */
  function Dot(h: nat, pt: seq<real>): Expr
  {
    SumOf(seq(|pt|, j requires 0 <= j < |pt| => Mul(Var(Beta(h, j)), Const(pt[j]))))
  }

  /** Hyperplane of observation `h` evaluated at the covariates `pt`:
      `alpha[h] + sum(beta[h, j] * pt[j])`, without `alpha[h]` when the
      intercept is dropped. */
  function Hyper(h: nat, pt: seq<real>, intercept: bool): Expr
  {
    if intercept then Add(Var(Alpha(h)), Dot(h, pt)) else Dot(h, pt)
  }

  /** The comparison a frontier imposes: `<=` for production, `>=` for cost. */
  function OpFor(fun: Fun): (op: RelOp)
    ensures op != Eq
    ensures op == AtMost <==> fun == Production
  {
    match fun
    case Production => AtMost
    case Cost => AtLeast
  }

  /** Observation `i`'s own hyperplane at its covariates `pt`, compared with
      observation `h`'s hyperplane at the same point. */
  function Cut(op: RelOp, i: nat, h: nat, pt: seq<real>, intercept: bool): Constraint
  {
    Rel(op, Hyper(i, pt, intercept), Hyper(h, pt, intercept))
  }

  /** The slope variables of observation `h` over `width` inputs. */
  ghost function BetaRow(h: nat, width: nat): set<VarRef>
  {
    set j | 0 <= j < width :: Beta(h, j)
  }

  /** A hyperplane mentions the slopes of its owner and, exactly when the
      intercept is kept, the owner's intercept; nothing else. */
  lemma HyperVars(h: nat, pt: seq<real>, intercept: bool)
    ensures Vars(Hyper(h, pt, intercept)) == (if intercept then {Alpha(h)} else {}) + BetaRow(h, |pt|)
  {
    var ts := seq(|pt|, j requires 0 <= j < |pt| => Mul(Var(Beta(h, j)), Const(pt[j])));
    VarsSumOf(ts);
    forall v | v in Vars(Dot(h, pt))
      ensures v in BetaRow(h, |pt|)
    {
      var k :| 0 <= k < |ts| && v in Vars(ts[k]);
      assert Vars(ts[k]) == {Beta(h, k)};
    }
    forall v | v in BetaRow(h, |pt|)
      ensures v in Vars(Dot(h, pt))
    {
      var j :| 0 <= j < |pt| && v == Beta(h, j);
      assert v in Vars(ts[j]);
    }
  }

  /** A cut mentions the intercepts of both owners exactly when the intercept
      is kept: under constant returns to scale no `Alpha` appears. */
  lemma CutVars(op: RelOp, i: nat, h: nat, pt: seq<real>, intercept: bool)
    ensures ConstraintVars(Cut(op, i, h, pt, intercept))
         == (if intercept then {Alpha(i), Alpha(h)} else {}) + BetaRow(i, |pt|) + BetaRow(h, |pt|)
  {
    HyperVars(i, pt, intercept);
    HyperVars(h, pt, intercept);
  }

  /** A cut built without intercepts holds or fails regardless of the values
      given to the intercept variables. */
  lemma CutWithoutInterceptIgnoresAlpha(op: RelOp, i: nat, h: nat, pt: seq<real>,
                                        env1: VarRef -> real, env2: VarRef -> real, ln: real -> real)
    requires forall v: VarRef :: !v.Alpha? ==> env1(v) == env2(v)
    ensures Holds(Cut(op, i, h, pt, false), env1, ln) <==> Holds(Cut(op, i, h, pt, false), env2, ln)
  {
    CutVars(op, i, h, pt, false);
    HoldsDependsOnVars(Cut(op, i, h, pt, false), env1, env2, ln);
  }
}

=== FILE: icnls.dfy ===
/** Isotonic convex nonparametric least squares (`pystoned/ICNLS.py`): one
    function that builds the model from the string switches `crt`
    ("addi" / "mult"), `func` ("prod" / "cost") and `pps` ("vrs" / "crs"),
    with the concavity cuts weighted and gated by the matrix `p`. */
module Icnls {
  import opened Outcomes
  import opened Expr
  import opened Hyperplanes
  import opened Pairs
  import opened Formulation
  import Tools

  // ---------------------------------------------------------------------
  // Switches
  // ---------------------------------------------------------------------

  /** The branches whose constraints read the covariate rows `x[i][j]`. */
  predicate ReadsInputs(crt: string, pps: string)
  {
    || (crt == "addi" && pps == "vrs")
    || (crt == "mult" && (pps == "vrs" || pps == "crs"))
  }

  predicate KnownFunc(func: string)
  {
    func == "prod" || func == "cost"
  }

  /** The branches that also build concavity cuts, which read `p`. */
  predicate ReadsWeights(crt: string, func: string, pps: string)
  {
    ReadsInputs(crt, pps) && KnownFunc(func)
  }

  /** `<=` for a production frontier, `>=` for a cost frontier. */
  function FuncOp(func: string): (op: RelOp)
    requires KnownFunc(func)
    ensures op != Eq && (op == AtMost <==> func == "prod")
  {
    if func == "prod" then AtMost else AtLeast
  }

  /** The constraint families a branch declares. */
  function FamilyNames(crt: string, func: string, pps: string): set<string>
  {
    if crt == "addi" && pps == "vrs" then
      {"reg"} + (if KnownFunc(func) then {"concav"} else {})
    else if crt == "mult" && (pps == "vrs" || pps == "crs") then
      {"qreg", "qlog"} + (if KnownFunc(func) then {"qconcav"} else {})
    else {}
  }

  // ---------------------------------------------------------------------
  // Data
  // ---------------------------------------------------------------------

  /** The rows a branch reads exist and are `m` wide, and the weights cover
      `I x I` where concavity cuts are built. */
  predicate Fits(y: seq<real>, x: seq<seq<real>>, m: nat, p: seq<seq<real>>,
                 crt: string, func: string, pps: string)
  {
    && (ReadsInputs(crt, pps) ==> |x| >= |y| && forall i :: 0 <= i < |y| ==> |x[i]| >= m)
    && (ReadsWeights(crt, func, pps) ==> |p| >= |y| && forall i :: 0 <= i < |y| ==> |p[i]| >= |y|)
  }

  /** The covariates `x[i][j]` for `j` in `J`.  Unlike `CqerZg2.Point`, the
      width `m` is the builder's own, not read from a shaped sample. */
  function Point(x: seq<seq<real>>, m: nat, i: nat): (pt: seq<real>)
    requires i < |x| && |x[i]| >= m
    ensures |pt| == m
  {
    x[i][..m]
  }

  /** `p[i][h] != 0` for `i, h` in `I`: the pairs a concavity cut may use. */
  function Gate(p: seq<seq<real>>, n: nat): (g: seq<seq<bool>>)
    requires |p| >= n && forall i :: 0 <= i < n ==> |p[i]| >= n
    ensures Covers(g, n)
    ensures forall i, h :: 0 <= i < n && 0 <= h < n ==> (g[i][h] <==> p[i][h] != 0.0)
  {
    seq(n, i requires 0 <= i < n => seq(n, h requires 0 <= h < n => p[i][h] != 0.0))
  }

  /** The variables: `a` and `e` free, `b` and `f` non-negative. */
  function Layout(): (r: map<Kind, Bound>)
    ensures r.Keys == {KAlpha, KBeta, KEpsilon, KFrontier}
    ensures forall k :: k in r ==> (r[k] == NonNegative <==> k in {KBeta, KFrontier})
  {
    map[KAlpha := Free, KBeta := NonNegative, KEpsilon := Free, KFrontier := NonNegative]
  }

  // ---------------------------------------------------------------------
  // Objective and rows
  // ---------------------------------------------------------------------

  /** `sum(e[i] * e[i] for i in I)`, shared by both error structures. */
  function SumOfSquares(n: nat): Expr
  {
    SumOf(seq(n, i requires 0 <= i < n => Mul(Var(Epsilon(i)), Var(Epsilon(i)))))
  }

  /** `y[i] == a[i] + sum(b[i, j] * x[i][j]) + e[i]`. */
  function RegRow(y: seq<real>, x: seq<seq<real>>, m: nat, i: nat): Constraint
    requires i < |y| && i < |x| && |x[i]| >= m
  {
    Rel(Eq, Const(y[i]), Add(Hyper(i, Point(x, m, i), true), Var(Epsilon(i))))
  }

  /** `log(y[i]) == log(f[i] + 1) + e[i]`. */
  function QregRow(y: seq<real>, i: nat): Constraint
    requires i < |y|
  {
    Rel(Eq, Log(Const(y[i])), Add(Log(Add(Var(Frontier(i)), Const(1.0))), Var(Epsilon(i))))
  }

  /** `f[i] == a[i] + sum(b[i, j] * x[i][j]) - 1`, without `a[i]` under CRS. */
  function QlogRow(x: seq<seq<real>>, m: nat, i: nat, intercept: bool): Constraint
    requires i < |x| && |x[i]| >= m
  {
    Rel(Eq, Var(Frontier(i)), Sub(Hyper(i, Point(x, m, i), intercept), Const(1.0)))
  }

  /** `p[i][i] * (hyperplane i at x[i]) op p[i][h] * (hyperplane h at x[i])`. */
  function ConcavRow(op: RelOp, x: seq<seq<real>>, m: nat, p: seq<seq<real>>, i: nat, h: nat,
                     intercept: bool): Constraint
    requires i < |x| && |x[i]| >= m && i < |p| && i < |p[i]| && h < |p[i]|
  {
    Rel(op, Mul(Const(p[i][i]), Hyper(i, Point(x, m, i), intercept)),
            Mul(Const(p[i][h]), Hyper(h, Point(x, m, i), intercept)))
  }

  /** One concavity cut per generated pair `(i, h)`, keyed by the pair. */
  function ConcavRows(op: RelOp, x: seq<seq<real>>, m: nat, p: seq<seq<real>>, n: nat,
                      intercept: bool, ps: seq<(nat, nat)>): (rows: seq<Row>)
    requires |x| >= n && (forall i :: 0 <= i < n ==> |x[i]| >= m)
    requires |p| >= n && (forall i :: 0 <= i < n ==> |p[i]| >= n)
    requires forall k :: 0 <= k < |ps| ==> ps[k].0 < n && ps[k].1 < n
    ensures |rows| == |ps|
    ensures forall k :: 0 <= k < |ps| ==>
              rows[k] == Row(Pair(ps[k].0, ps[k].1), ConcavRow(op, x, m, p, ps[k].0, ps[k].1, intercept))
  {
    seq(|ps|, k requires 0 <= k < |ps| =>
      Row(Pair(ps[k].0, ps[k].1), ConcavRow(op, x, m, p, ps[k].0, ps[k].1, intercept)))
  }

  /** `concav_rule` / `qconcav_rule`: the pair `(i, h)` is skipped when
      `i == h` or `p[i][h] == 0`, and yields a cut otherwise. */
  function Concav(op: RelOp, x: seq<seq<real>>, m: nat, p: seq<seq<real>>, n: nat, intercept: bool): (b: Body)
    requires |x| >= n && (forall i :: 0 <= i < n ==> |x[i]| >= m)
    requires |p| >= n && (forall i :: 0 <= i < n ==> |p[i]| >= n)
    ensures b.Built?
    ensures |b.rows| == |OffDiagonalTrue(Gate(p, n), n)|
    ensures forall i: nat, h: nat ::
              Pair(i, h) in Keys(b.rows) <==> i < n && h < n && i != h && p[i][h] != 0.0
    ensures forall k :: 0 <= k < |b.rows| ==>
              && b.rows[k].key.Pair? && b.rows[k].key.i < n && b.rows[k].key.h < n
              && b.rows[k].con == ConcavRow(op, x, m, p, b.rows[k].key.i, b.rows[k].key.h, intercept)
  {
    var g := Gate(p, n);
    var ps := ActivePairs(g, n);
    assert forall k :: 0 <= k < |ps| ==> ps[k] in ps;
    var rows := ConcavRows(op, x, m, p, n, intercept, ps);
    ActiveKeys(g, n, rows);
    Built(rows)
  }

  /** `reg_rule`: one regression equation per observation. */
  function Reg(y: seq<real>, x: seq<seq<real>>, m: nat): (b: Body)
    requires |x| >= |y| && forall i :: 0 <= i < |y| ==> |x[i]| >= m
    ensures b.Built? && |b.rows| == |y|
    ensures forall i :: 0 <= i < |y| ==> b.rows[i] == Row(At(i), RegRow(y, x, m, i))
  {
    Built(seq(|y|, i requires 0 <= i < |y| => Row(At(i), RegRow(y, x, m, i))))
  }

  /** `qreg_rule`: one log-transformed regression equation per observation. */
  function Qreg(y: seq<real>): (b: Body)
    ensures b.Built? && |b.rows| == |y|
    ensures forall i :: 0 <= i < |y| ==> b.rows[i] == Row(At(i), QregRow(y, i))
  {
    Built(seq(|y|, i requires 0 <= i < |y| => Row(At(i), QregRow(y, i))))
  }

  /** `qlog_rule`: one frontier definition per observation. */
  function Qlog(x: seq<seq<real>>, m: nat, n: nat, intercept: bool): (b: Body)
    requires |x| >= n && forall i :: 0 <= i < n ==> |x[i]| >= m
    ensures b.Built? && |b.rows| == n
    ensures forall i :: 0 <= i < n ==> b.rows[i] == Row(At(i), QlogRow(x, m, i, intercept))
  {
    Built(seq(n, i requires 0 <= i < n => Row(At(i), QlogRow(x, m, i, intercept))))
  }

  /** The constraint families of the chosen branch. */
  function Families(y: seq<real>, x: seq<seq<real>>, m: nat, p: seq<seq<real>>,
                    crt: string, func: string, pps: string): (r: map<string, Body>)
    requires Fits(y, x, m, p, crt, func, pps)
    ensures r.Keys == FamilyNames(crt, func, pps)
    ensures "reg" in r ==> r["reg"] == Reg(y, x, m)
    ensures "qreg" in r ==> r["qreg"] == Qreg(y)
    ensures "qlog" in r ==> r["qlog"] == Qlog(x, m, |y|, pps == "vrs")
    ensures "concav" in r ==> r["concav"] == Concav(FuncOp(func), x, m, p, |y|, true)
    ensures "qconcav" in r ==> r["qconcav"] == Concav(FuncOp(func), x, m, p, |y|, pps == "vrs")
  {
    if crt == "addi" && pps == "vrs" then
      if KnownFunc(func) then map["reg" := Reg(y, x, m), "concav" := Concav(FuncOp(func), x, m, p, |y|, true)]
      else map["reg" := Reg(y, x, m)]
    else if crt == "mult" && (pps == "vrs" || pps == "crs") then
      var vrs := pps == "vrs";
      if KnownFunc(func) then
        map["qreg" := Qreg(y), "qlog" := Qlog(x, m, |y|, vrs), "qconcav" := Concav(FuncOp(func), x, m, p, |y|, vrs)]
      else map["qreg" := Qreg(y), "qlog" := Qlog(x, m, |y|, vrs)]
    else map[]
  }

  // ---------------------------------------------------------------------
  // The model builder
  // ---------------------------------------------------------------------

  /** `icnls(y, x, p, crt, func, pps)` as written: `m` is 1 when `x[0]` is
      a number and `len(x[0])` otherwise, but every rule then subscripts
      `x[i][j]`, so a flat `x` fails with a TypeError as soon as a branch
      reads the covariates.  A number for `x`, or an empty `x`, fails at
      `x[0]`. */
  function IcnlsAsWritten(y: seq<real>, x: Tools.PyList, p: seq<seq<real>>,
                          crt: string, func: string, pps: string): (r: Result<Formulation>)
    requires x.Nested? && |x.rows| > 0 ==> Fits(y, x.rows, |x.rows[0]|, p, crt, func, pps)
    ensures r.Err? <==>
              || x.Scalar?
              || (x.Flat? && (|x.vs| == 0 || (|y| > 0 && ReadsInputs(crt, pps))))
              || (x.Nested? && |x.rows| == 0)
    ensures r.Err? ==> r.error == (if x.Scalar? || (x.Flat? && |x.vs| > 0) then TypeError else IndexError)
    ensures r.Ok? ==>
              && r.value.dims == Dims(|y|, if x.Flat? then 1 else |x.rows[0]|, 0)
              && r.value.vars == Layout()
              && r.value.families.Keys == FamilyNames(crt, func, pps)
              && r.value.families
                 == Families(y, if x.Flat? then Tools.Column(x.vs) else x.rows, if x.Flat? then 1 else |x.rows[0]|,
                             p, crt, func, pps)
              && r.value.objectives
                 == (if crt == "addi" || crt == "mult" then [Objective("objective", SumOfSquares(|y|), true)] else [])
  {
    match x
    case Scalar(_) => Err(TypeError)
    case Flat(vs) =>
      if |vs| == 0 then Err(IndexError)
      else if |y| > 0 && ReadsInputs(crt, pps) then Err(TypeError)
      else Ok(Build(y, Tools.Column(vs), 1, p, crt, func, pps))
    case Nested(rows) =>
      if |rows| == 0 then Err(IndexError)
      else Ok(Build(y, rows, |rows[0]|, p, crt, func, pps))
  }

  function Build(y: seq<real>, x: seq<seq<real>>, m: nat, p: seq<seq<real>>,
                 crt: string, func: string, pps: string): Formulation
    requires Fits(y, x, m, p, crt, func, pps)
  {
    var objectives := if crt == "addi" || crt == "mult" then [Objective("objective", SumOfSquares(|y|), true)] else [];
    Formulation(Dims(|y|, m, 0), Layout(), objectives, Families(y, x, m, p, crt, func, pps))
  }

  /** The flat list promoted to one-element rows, as `to_2d_list` does.
      Unlike `CqerZg2.Promote`, it cannot fail: a number or an empty list is
      passed on for the builder to reject at `x[0]`. */
  function Promote(x: Tools.PyList): (r: Tools.PyList)
    ensures x.Flat? && |x.vs| > 0 ==> r == Tools.Nested(Tools.ToTwoD(x).value)
    ensures !(x.Flat? && |x.vs| > 0) ==> r == x
  {
    if x.Flat? && |x.vs| > 0 then Tools.Nested(Tools.Column(x.vs)) else x
  }

  /** What the source evidently intends: a flat `x` is one input per
      observation.  Only a number or an empty list is rejected, and wherever
      the source succeeds the corrected builder returns the same model. */
  function Icnls(y: seq<real>, x: Tools.PyList, p: seq<seq<real>>,
                 crt: string, func: string, pps: string): (r: Result<Formulation>)
    requires x.Flat? ==> Fits(y, Tools.Column(x.vs), 1, p, crt, func, pps)
    requires x.Nested? && |x.rows| > 0 ==> Fits(y, x.rows, |x.rows[0]|, p, crt, func, pps)
    ensures r.Err? <==> x.Scalar? || (x.Flat? && |x.vs| == 0) || (x.Nested? && |x.rows| == 0)
    ensures r.Err? ==> r.error == (if x.Scalar? then TypeError else IndexError)
    ensures r.Ok? ==> r.value.dims.width == (if x.Flat? then 1 else |x.rows[0]|)
                      && r.value.families.Keys == FamilyNames(crt, func, pps)
                      && r.value.families
                         == Families(y, if x.Flat? then Tools.Column(x.vs) else x.rows, if x.Flat? then 1 else |x.rows[0]|,
                                     p, crt, func, pps)
    ensures IcnlsAsWritten(y, x, p, crt, func, pps).Ok? ==> r == IcnlsAsWritten(y, x, p, crt, func, pps)
  {
    IcnlsAsWritten(y, Promote(x), p, crt, func, pps)
  }

  /** The regression equation of one observation with `y = 1` and the
      single input `x = 2`, written out. */
  lemma SingleRegRow()
    ensures RegRow([1.0], [[2.0]], 1, 0)
            == Rel(Eq, Const(1.0), Add(Add(Var(Alpha(0)), Add(Const(0.0), Mul(Var(Beta(0, 0)), Const(2.0)))),
                                       Var(Epsilon(0))))
  {
    var pt := Point([[2.0]], 1, 0);
    assert pt == [2.0];
    var terms := seq(|pt|, j requires 0 <= j < |pt| => Mul(Var(Beta(0, j)), Const(pt[j])));
    assert Dot(0, pt) == SumOf(terms);
    assert terms == [Mul(Var(Beta(0, 0)), Const(2.0))];
    assert terms[..0] == [];
    assert SumOf(terms) == Add(SumOf([]), terms[0]);
  }

  /** One observation with one input under additive error and VRS: the
      source raises a TypeError on the flat `x`, the corrected builder gives
      the regression equation `y[0] == a[0] + b[0, 0] * x[0] + e[0]`. */
  lemma FlatInputsRejected()
    ensures IcnlsAsWritten([1.0], Tools.Flat([2.0]), [[1.0]], "addi", "prod", "vrs") == Err(TypeError)
    ensures var r := Icnls([1.0], Tools.Flat([2.0]), [[1.0]], "addi", "prod", "vrs");
            && r.Ok? && "reg" in r.value.families
            && r.value.families["reg"].rows
               == [Row(At(0), Rel(Eq, Const(1.0), Add(Add(Var(Alpha(0)), Add(Const(0.0), Mul(Var(Beta(0, 0)), Const(2.0)))),
                                                   Var(Epsilon(0)))))]
  {
    assert Tools.Column([2.0]) == [[2.0]];
    assert Promote(Tools.Flat([2.0])) == Tools.Nested([[2.0]]);
    var fams := Families([1.0], [[2.0]], 1, [[1.0]], "addi", "prod", "vrs");
    assert Icnls([1.0], Tools.Flat([2.0]), [[1.0]], "addi", "prod", "vrs")
           == Ok(Build([1.0], [[2.0]], 1, [[1.0]], "addi", "prod", "vrs"));
    assert fams["reg"] == Reg([1.0], [[2.0]], 1);
    SingleRegRow();
    assert Reg([1.0], [[2.0]], 1).rows == [Row(At(0), RegRow([1.0], [[2.0]], 1, 0))];
  }

  // ---------------------------------------------------------------------
  // Properties of the rows
  // ---------------------------------------------------------------------

  /** A regression equation holds exactly when `e[i]` is the gap between
      `y[i]` and the observation's hyperplane at its own inputs. */
  lemma RegResidual(y: seq<real>, x: seq<seq<real>>, m: nat, i: nat, env: VarRef -> real, ln: real -> real)
    requires i < |y| && i < |x| && |x[i]| >= m
    ensures Holds(RegRow(y, x, m, i), env, ln)
            <==> env(Epsilon(i)) == y[i] - Eval(Hyper(i, Point(x, m, i), true), env, ln)
  {
    var hyper := Hyper(i, Point(x, m, i), true);
    assert RegRow(y, x, m, i) == Rel(Eq, Const(y[i]), Add(hyper, Var(Epsilon(i))));
    assert Eval(Add(hyper, Var(Epsilon(i))), env, ln) == Eval(hyper, env, ln) + env(Epsilon(i));
  }

  /** A log-transformed regression equation holds exactly when `e[i]` is
      the gap between `log(y[i])` and `log(f[i] + 1)`. */
  lemma QregResidual(y: seq<real>, i: nat, env: VarRef -> real, ln: real -> real)
    requires i < |y|
    ensures Holds(QregRow(y, i), env, ln) <==> env(Epsilon(i)) == ln(y[i]) - ln(env(Frontier(i)) + 1.0)
  {
    var fr := Log(Add(Var(Frontier(i)), Const(1.0)));
    assert QregRow(y, i) == Rel(Eq, Log(Const(y[i])), Add(fr, Var(Epsilon(i))));
    assert Eval(Add(Var(Frontier(i)), Const(1.0)), env, ln) == env(Frontier(i)) + 1.0;
    assert Eval(Log(Const(y[i])), env, ln) == ln(y[i]);
    assert Eval(Add(fr, Var(Epsilon(i))), env, ln) == ln(env(Frontier(i)) + 1.0) + env(Epsilon(i));
  }

  /** A frontier definition holds exactly when `f[i]` is the observation's
      hyperplane at its own inputs minus 1, with `a[i]` only when kept. */
  lemma QlogHolds(x: seq<seq<real>>, m: nat, i: nat, intercept: bool, env: VarRef -> real, ln: real -> real)
    requires i < |x| && |x[i]| >= m
    ensures Holds(QlogRow(x, m, i, intercept), env, ln)
            <==> env(Frontier(i)) == Eval(Hyper(i, Point(x, m, i), intercept), env, ln) - 1.0
  {
    var hyper := Hyper(i, Point(x, m, i), intercept);
    assert QlogRow(x, m, i, intercept) == Rel(Eq, Var(Frontier(i)), Sub(hyper, Const(1.0)));
    assert Eval(Sub(hyper, Const(1.0)), env, ln) == Eval(hyper, env, ln) - 1.0;
  }

  /** With unit weights `p[i][i] == p[i][h] == 1` the concavity cut is the
      Afriat cut of observation `i` against `h`. */
  lemma UnitWeightsGiveAfriatCut(op: RelOp, x: seq<seq<real>>, m: nat, p: seq<seq<real>>, i: nat, h: nat,
                                 intercept: bool, env: VarRef -> real, ln: real -> real)
    requires i < |x| && |x[i]| >= m && i < |p| && i < |p[i]| && h < |p[i]|
    requires p[i][i] == 1.0 && p[i][h] == 1.0
    ensures Holds(ConcavRow(op, x, m, p, i, h, intercept), env, ln)
            <==> Holds(Cut(op, i, h, Point(x, m, i), intercept), env, ln)
  {
    var hi := Hyper(i, Point(x, m, i), intercept);
    var hh := Hyper(h, Point(x, m, i), intercept);
    assert ConcavRow(op, x, m, p, i, h, intercept) == Rel(op, Mul(Const(1.0), hi), Mul(Const(1.0), hh));
    assert Eval(Mul(Const(1.0), hi), env, ln) == Eval(hi, env, ln);
    assert Eval(Mul(Const(1.0), hh), env, ln) == Eval(hh, env, ln);
  }

  /** A concavity cut mentions both observations' slopes, and their
      intercepts exactly when the intercept is kept. */
  lemma ConcavVars(op: RelOp, x: seq<seq<real>>, m: nat, p: seq<seq<real>>, i: nat, h: nat, intercept: bool)
    requires i < |x| && |x[i]| >= m && i < |p| && i < |p[i]| && h < |p[i]|
    ensures ConstraintVars(ConcavRow(op, x, m, p, i, h, intercept))
            == (if intercept then {Alpha(i), Alpha(h)} else {}) + BetaRow(i, m) + BetaRow(h, m)
  {
    var hi := Hyper(i, Point(x, m, i), intercept);
    var hh := Hyper(h, Point(x, m, i), intercept);
    HyperVars(i, Point(x, m, i), intercept);
    HyperVars(h, Point(x, m, i), intercept);
    assert ConcavRow(op, x, m, p, i, h, intercept) == Rel(op, Mul(Const(p[i][i]), hi), Mul(Const(p[i][h]), hh));
    assert Vars(Mul(Const(p[i][i]), hi)) == Vars(hi);
    assert Vars(Mul(Const(p[i][h]), hh)) == Vars(hh);
  }

  /** `qlog` ties the frontier variable to the slopes, and to the intercept
      exactly under VRS. */
  lemma QlogVars(x: seq<seq<real>>, m: nat, i: nat, intercept: bool)
    requires i < |x| && |x[i]| >= m
    ensures ConstraintVars(QlogRow(x, m, i, intercept))
            == {Frontier(i)} + (if intercept then {Alpha(i)} else {}) + BetaRow(i, m)
  {
    var hyper := Hyper(i, Point(x, m, i), intercept);
    HyperVars(i, Point(x, m, i), intercept);
    assert QlogRow(x, m, i, intercept) == Rel(Eq, Var(Frontier(i)), Sub(hyper, Const(1.0)));
    assert Vars(Sub(hyper, Const(1.0))) == Vars(hyper);
    assert Vars(Var(Frontier(i))) == {Frontier(i)};
  }

  /** `qreg` mentions only the frontier variable and the residual. */
  lemma QregVars(y: seq<real>, i: nat)
    requires i < |y|
    ensures ConstraintVars(QregRow(y, i)) == {Frontier(i), Epsilon(i)}
  {
    var fr := Add(Var(Frontier(i)), Const(1.0));
    assert QregRow(y, i) == Rel(Eq, Log(Const(y[i])), Add(Log(fr), Var(Epsilon(i))));
    assert Vars(fr) == {Frontier(i)};
    assert Vars(Log(fr)) == {Frontier(i)};
    assert Vars(Var(Epsilon(i))) == {Epsilon(i)};
    assert Vars(Add(Log(fr), Var(Epsilon(i)))) == {Frontier(i), Epsilon(i)};
    assert Vars(Log(Const(y[i]))) == {};
  }

  /** No row of a body mentions an intercept. */
  ghost predicate InterceptFree(b: Body)
  {
    b.Built? ==> forall k, a: nat :: 0 <= k < |b.rows| ==> Alpha(a) !in ConstraintVars(b.rows[k].con)
  }

  lemma QregInterceptFree(y: seq<real>)
    ensures InterceptFree(Qreg(y))
  {
    var rows := Qreg(y).rows;
    forall k, a: nat | 0 <= k < |rows|
      ensures Alpha(a) !in ConstraintVars(rows[k].con)
    {
      QregVars(y, k);
    }
  }

  lemma QlogInterceptFree(x: seq<seq<real>>, m: nat, n: nat)
    requires |x| >= n && forall i :: 0 <= i < n ==> |x[i]| >= m
    ensures InterceptFree(Qlog(x, m, n, false))
  {
    var rows := Qlog(x, m, n, false).rows;
    forall k, a: nat | 0 <= k < |rows|
      ensures Alpha(a) !in ConstraintVars(rows[k].con)
    {
      QlogVars(x, m, k, false);
      assert Alpha(a) !in BetaRow(k, m);
    }
  }

  lemma ConcavInterceptFree(op: RelOp, x: seq<seq<real>>, m: nat, p: seq<seq<real>>, n: nat)
    requires |x| >= n && (forall i :: 0 <= i < n ==> |x[i]| >= m)
    requires |p| >= n && (forall i :: 0 <= i < n ==> |p[i]| >= n)
    ensures InterceptFree(Concav(op, x, m, p, n, false))
  {
    var rows := Concav(op, x, m, p, n, false).rows;
    forall k, a: nat | 0 <= k < |rows|
      ensures Alpha(a) !in ConstraintVars(rows[k].con)
    {
      ConcavVars(op, x, m, p, rows[k].key.i, rows[k].key.h, false);
      assert Alpha(a) !in BetaRow(rows[k].key.i, m) + BetaRow(rows[k].key.h, m);
    }
  }

  /** Under multiplicative error and CRS no generated constraint mentions an
      intercept `a[k]`. */
  lemma NoInterceptUnderCrs(y: seq<real>, x: seq<seq<real>>, m: nat, p: seq<seq<real>>, func: string)
    requires Fits(y, x, m, p, "mult", func, "crs")
    ensures var fams := Families(y, x, m, p, "mult", func, "crs");
            forall name :: name in fams ==> InterceptFree(fams[name])
  {
    var fams := Families(y, x, m, p, "mult", func, "crs");
    QregInterceptFree(y);
    QlogInterceptFree(x, m, |y|);
    if KnownFunc(func) {
      ConcavInterceptFree(FuncOp(func), x, m, p, |y|);
    }
  }
}

=== FILE: losses.dfy ===
/** The objective expressions: the quantile (linear) and expectile (squared)
    check losses over the split residuals, and the slope penalties. */
module Losses {
  import opened Expr

  /** `epsilon_plus[i]` (or `epsilon_minus[i]`) for every `i`, squared for
      the expectile loss. */
  function ResidualTerms(n: nat, plus: bool, squared: bool): seq<Expr>
  {
    seq(n, i requires 0 <= i < n =>
      var v := Var(if plus then EpsilonPlus(i) else EpsilonMinus(i));
      if squared then Square(v) else v)
  }

  /** `tau * sum(eps_plus) + (1 - tau) * sum(eps_minus)`; `1 - tau` is a
      number computed before the expression is built. */
  function CheckLoss(tau: real, n: nat, squared: bool): Expr
  {
    Add(Mul(Const(tau), SumOf(ResidualTerms(n, true, squared))),
        Mul(Const(1.0 - tau), SumOf(ResidualTerms(n, false, squared))))
  }

  /** The quantile loss of CQR. */
  function QuantileLoss(tau: real, n: nat): Expr
  {
    CheckLoss(tau, n, false)
  }

  /** The expectile loss of CER: the same with every residual squared. */
  function ExpectileLoss(tau: real, n: nat): Expr
  {
    CheckLoss(tau, n, true)
  }

  /** `beta[ij] for ij in I * J`: every slope variable, row by row. */
  function AllBetas(n: nat, width: nat): (r: seq<VarRef>)
    ensures |r| == n * width
    ensures forall v: VarRef :: v in r <==> v.Beta? && v.i < n && v.j < width
  {
    if n == 0 then []
    else
      var row := seq(width, j requires 0 <= j < width => Beta(n - 1, j));
      assert forall v: VarRef :: v in row <==> v.Beta? && v.i == n - 1 && v.j < width by {
        forall v: VarRef | v.Beta? && v.i == n - 1 && v.j < width
          ensures v in row
        {
          assert row[v.j] == v;
        }
      }
      AllBetas(n - 1, width) + row
  }

  /** `eta * sum(beta[ij])` (L1) or `eta * sum(beta[ij] ** 2)` (L2). */
  function SlopePenalty(eta: real, n: nat, width: nat, squared: bool): Expr
  {
    var bs := AllBetas(n, width);
    Mul(Const(eta), SumOf(seq(|bs|, k requires 0 <= k < |bs| =>
      if squared then Square(Var(bs[k])) else Var(bs[k]))))
  }

  ghost function ResidualVars(n: nat): set<VarRef>
  {
    (set i | 0 <= i < n :: EpsilonPlus(i)) + (set i | 0 <= i < n :: EpsilonMinus(i))
  }

  ghost function SlopeVars(n: nat, width: nat): set<VarRef>
  {
    set i, j | 0 <= i < n && 0 <= j < width :: Beta(i, j)
  }

  /** One side of the check loss weighs exactly that side's residual parts. */
  lemma ResidualSumVars(n: nat, plus: bool, squared: bool)
    ensures plus ==> Vars(SumOf(ResidualTerms(n, plus, squared))) == set i | 0 <= i < n :: EpsilonPlus(i)
    ensures !plus ==> Vars(SumOf(ResidualTerms(n, plus, squared))) == set i | 0 <= i < n :: EpsilonMinus(i)
  {
    var ts := ResidualTerms(n, plus, squared);
    var side := set i | 0 <= i < n :: if plus then EpsilonPlus(i) else EpsilonMinus(i);
    VarsSumOf(ts);
    forall v | v in Vars(SumOf(ts))
      ensures v in side
    {
      var k :| 0 <= k < |ts| && v in Vars(ts[k]);
      assert Vars(ts[k]) == {if plus then EpsilonPlus(k) else EpsilonMinus(k)};
    }
    forall v | v in side
      ensures v in Vars(SumOf(ts))
    {
      var i :| 0 <= i < n && v == (if plus then EpsilonPlus(i) else EpsilonMinus(i));
      assert Vars(ts[i]) == {v};
    }
  }

  /** Both check losses weigh every split residual and nothing else. */
  lemma CheckLossVars(tau: real, n: nat, squared: bool)
    ensures Vars(CheckLoss(tau, n, squared)) == ResidualVars(n)
  {
    var ps := ResidualTerms(n, true, squared);
    var ms := ResidualTerms(n, false, squared);
    ResidualSumVars(n, true, squared);
    ResidualSumVars(n, false, squared);
    assert Vars(Mul(Const(tau), SumOf(ps))) == Vars(SumOf(ps));
    assert Vars(Mul(Const(1.0 - tau), SumOf(ms))) == Vars(SumOf(ms));
  }

  /** Both penalties reach every slope `beta[i, j]` and nothing else. */
  lemma SlopePenaltyVars(eta: real, n: nat, width: nat, squared: bool)
    ensures Vars(SlopePenalty(eta, n, width, squared)) == SlopeVars(n, width)
  {
    var bs := AllBetas(n, width);
    var ts := seq(|bs|, k requires 0 <= k < |bs| => if squared then Square(Var(bs[k])) else Var(bs[k]));
    VarsSumOf(ts);
    forall v | v in Vars(SumOf(ts))
      ensures v in SlopeVars(n, width)
    {
      var k :| 0 <= k < |ts| && v in Vars(ts[k]);
      assert Vars(ts[k]) == {bs[k]};
      assert bs[k] in bs;
    }
    forall v | v in SlopeVars(n, width)
      ensures v in Vars(SumOf(ts))
    {
      assert v in bs;
      var k :| 0 <= k < |bs| && bs[k] == v;
      assert Vars(ts[k]) == {v};
    }
  }
}

=== FILE: outcomes.dfy ===
/** The exceptions the modelled Python code raises, and a failure-compatible
    result type so that generators can propagate them with `:-`. */
module Outcomes {

  datatype Option<+T> = None | Some(value: T)

  /** One constructor per distinct exception the source raises. */
  datatype Error =
    | IndexError                       // `li[0]` on an empty list
    | TypeError                        // subscripting a scalar, or `None[0]`
    | AttributeError                   // `tolist()` on a Python number in `trans_list`
    | RowCountMismatch(data: string)   // ValueError: row counts of two arrays differ
    | WidthMismatch(data: string)      // ValueError: data width differs from its direction vector
    | InvalidEmail                     // ValueError from set_neos_email
    | NoLocalSolver                    // ValueError: multiplicative model, no local solver given
    | InvalidPenalty                   // ValueError: penalty not in {1, 2, 3}
    | NotOptimized                     // assert_optimized
    | NoInterceptUnderCrs              // assert_various_return_to_scale

  datatype Result<+T> = Ok(value: T) | Err(error: Error) {

    predicate IsFailure() {
      Err?
    }

    function PropagateFailure<U>(): Result<U>
      requires Err?
    {
      Err(error)
    }

    function Extract(): T
      requires Ok?
    {
      value
    }
  }
}

=== FILE: pairs.dfy ===
/** Enumeration of the ordered observation pairs `(i, h)` that a boolean
    gate matrix switches on, in the row-major order in which Pyomo walks the
    index set `I x I`.  Diagonal pairs are always skipped. */
module Pairs {

  /** The matrix has (at least) `n` rows of (at least) `n` entries. */
  predicate Covers(m: seq<seq<bool>>, n: nat)
  {
    |m| >= n && forall i :: 0 <= i < n ==> |m[i]| >= n
  }

  /** Pair `p` yields a cut: off the diagonal and switched on. */
  predicate Gated(m: seq<seq<bool>>, n: nat, p: (nat, nat))
    requires Covers(m, n)
  {
    p.0 < n && p.1 < n && p.0 != p.1 && m[p.0][p.1]
  }

  /** Strict row-major order on pairs. */
  predicate Before(p: (nat, nat), q: (nat, nat))
  {
    p.0 < q.0 || (p.0 == q.0 && p.1 < q.1)
  }

  predicate Sorted(ps: seq<(nat, nat)>)
  {
    forall a, b :: 0 <= a < b < |ps| ==> Before(ps[a], ps[b])
  }

  /** Pairs `(i, h)` of row `i` with `h < hi` that the matrix switches on. */
  function RowPairs(m: seq<seq<bool>>, n: nat, i: nat, hi: nat): (r: seq<(nat, nat)>)
    requires Covers(m, n) && i < n && hi <= n
    ensures forall p :: p in r <==> p.0 == i && p.1 < hi && Gated(m, n, p)
    ensures Sorted(r)
  {
    if hi == 0 then []
    else
      var init := RowPairs(m, n, i, hi - 1);
      if i != hi - 1 && m[i][hi - 1] then init + [(i, hi - 1)] else init
  }

  /** Pairs of the first `rows` rows that the matrix switches on. */
  function PairsUpTo(m: seq<seq<bool>>, n: nat, rows: nat): (r: seq<(nat, nat)>)
    requires Covers(m, n) && rows <= n
    ensures forall p :: p in r <==> p.0 < rows && Gated(m, n, p)
    ensures Sorted(r)
  {
    if rows == 0 then []
    else
      var init := PairsUpTo(m, n, rows - 1);
      var last := RowPairs(m, n, rows - 1, n);
      assert forall a, b :: 0 <= a < |init| && 0 <= b < |last| ==> Before(init[a], last[b]) by {
        forall a, b | 0 <= a < |init| && 0 <= b < |last|
          ensures Before(init[a], last[b])
        {
          assert init[a] in init && last[b] in last;
        }
      }
      init + last
  }

  /** Every pair of the whole matrix that yields a cut, in generation order. */
  function ActivePairs(m: seq<seq<bool>>, n: nat): (r: seq<(nat, nat)>)
    requires Covers(m, n)
    ensures forall p :: p in r <==> Gated(m, n, p)
    ensures Sorted(r)
  {
    PairsUpTo(m, n, n)
  }

  /** The true off-diagonal entries of the matrix, as a set. */
  ghost function OffDiagonalTrue(m: seq<seq<bool>>, n: nat): set<(nat, nat)>
    requires Covers(m, n)
  {
    set i: nat, h: nat | i < n && h < n && i != h && m[i][h] :: (i, h)
  }

  /** A sorted sequence has no repeated element, so it has as many elements
      as the set of its elements. */
  lemma {:induction false} SortedCard(ps: seq<(nat, nat)>)
    requires Sorted(ps)
    ensures |set p | p in ps| == |ps|
  {
    if |ps| > 0 {
      var init := ps[..|ps| - 1];
      var last := ps[|ps| - 1];
      assert Sorted(init);
      SortedCard(init);
      assert last !in init by {
        forall k | 0 <= k < |init|
          ensures init[k] != last
        {
          assert Before(ps[k], ps[|ps| - 1]);
        }
      }
      var before := set p | p in init;
      assert last !in before;
      assert ps == init + [last];
      assert (set p | p in ps) == before + {last};
      assert |before + {last}| == |before| + 1;
    }
  }

  /** The number of generated pairs is the number of true off-diagonal
      entries: no pair is generated twice and none is missed. */
  lemma ActivePairsCount(m: seq<seq<bool>>, n: nat)
    requires Covers(m, n)
    ensures |ActivePairs(m, n)| == |OffDiagonalTrue(m, n)|
  {
    var ps := ActivePairs(m, n);
    SortedCard(ps);
    assert (set p | p in ps) == OffDiagonalTrue(m, n);
  }
}

=== FILE: pcqer.dfy ===
/** Penalised convex quantile and expectile regression (`pystoned/pCQER.py`):
    the penalty code chooses between an L1 or L2 slope penalty in a new
    objective and a per-observation Lipschitz cap on the slopes. */
module PCqer {
  import opened Outcomes
  import opened Expr
  import opened Hyperplanes
  import opened Formulation
  import opened Losses

  /** pCQR penalises the quantile model, pCER the expectile model. */
  datatype Loss = Quantile | Expectile

  /** The objective the base model leaves active. */
  function BaseObjective(loss: Loss): string
  {
    match loss
    case Quantile => "objective"
    case Expectile => "squared_objective"
  }

  function LossTerm(loss: Loss, tau: real, n: nat): Expr
  {
    match loss
    case Quantile => QuantileLoss(tau, n)
    case Expectile => ExpectileLoss(tau, n)
  }

  /** The new objective: the loss plus `eta` times the sum of the slopes
      (penalty 1) or of their squares (penalty 2). */
  function PenalisedObjective(loss: Loss, tau: real, eta: real, d: Dims, squared: bool): Expr
  {
    Add(LossTerm(loss, tau, d.n), SlopePenalty(eta, d.n, d.width, squared))
  }

  /** `sum(beta[i, j] ** 2 for j in J) <= eta ** 2`. */
  function LipschitzRow(i: nat, width: nat, eta: real): Constraint
  {
    Rel(AtMost, SumOf(seq(width, j requires 0 <= j < width => Square(Var(Beta(i, j))))), Const(eta * eta))
  }

  /** `__lipschitz_rule`: one cap per observation. */
  function Lipschitz(d: Dims, eta: real): (b: Body)
    ensures b.Built? && |b.rows| == d.n
    ensures forall i :: 0 <= i < d.n ==> b.rows[i] == Row(At(i), LipschitzRow(i, d.width, eta))
  {
    Built(seq(d.n, i requires 0 <= i < d.n => Row(At(i), LipschitzRow(i, d.width, eta))))
  }

  /** The squared Euclidean norm of observation `i`'s slope vector at `env`,
      summed coordinate by coordinate. */
  function SlopeNormSquared(env: VarRef -> real, i: nat, width: nat): real
  {
    if width == 0 then 0.0
    else SlopeNormSquared(env, i, width - 1) + env(Beta(i, width - 1)) * env(Beta(i, width - 1))
  }

  /** The cap's left-hand side evaluates to the squared slope norm. */
  lemma {:induction false} EvalSlopeSquares(env: VarRef -> real, ln: real -> real, i: nat, width: nat)
    ensures Eval(SumOf(seq(width, j requires 0 <= j < width => Square(Var(Beta(i, j))))), env, ln)
            == SlopeNormSquared(env, i, width)
  {
    if width > 0 {
      var ts := seq(width, j requires 0 <= j < width => Square(Var(Beta(i, j))));
      assert ts[..width - 1] == seq(width - 1, j requires 0 <= j < width - 1 => Square(Var(Beta(i, j))));
      EvalSlopeSquares(env, ln, i, width - 1);
      assert Eval(ts[width - 1], env, ln) == env(Beta(i, width - 1)) * env(Beta(i, width - 1));
    }
  }

  /** A cap holds exactly when the observation's slope vector lies in the
      ball of radius `eta`, measured by its squared norm. */
  lemma LipschitzHolds(i: nat, width: nat, eta: real, env: VarRef -> real, ln: real -> real)
    ensures Holds(LipschitzRow(i, width, eta), env, ln) <==> SlopeNormSquared(env, i, width) <= eta * eta
  {
    EvalSlopeSquares(env, ln, i, width);
  }

  /** Each cap bounds exactly the slopes of its own observation. */
  lemma LipschitzVars(i: nat, width: nat, eta: real)
    ensures ConstraintVars(LipschitzRow(i, width, eta)) == BetaRow(i, width)
  {
    var ts := seq(width, j requires 0 <= j < width => Square(Var(Beta(i, j))));
    VarsSumOf(ts);
    forall v | v in Vars(SumOf(ts))
      ensures v in BetaRow(i, width)
    {
      var k :| 0 <= k < |ts| && v in Vars(ts[k]);
      assert Vars(ts[k]) == {Beta(i, k)};
    }
    forall v | v in BetaRow(i, width)
      ensures v in Vars(SumOf(ts))
    {
      assert Vars(ts[v.j]) == {v};
    }
  }

  /** The penalised objectives weigh every split residual and every slope
      of every observation, and nothing else. */
  lemma PenalisedObjectiveVars(loss: Loss, tau: real, eta: real, d: Dims, squared: bool)
    ensures Vars(PenalisedObjective(loss, tau, eta, d, squared)) == ResidualVars(d.n) + SlopeVars(d.n, d.width)
  {
    CheckLossVars(tau, d.n, loss == Expectile);
    SlopePenaltyVars(eta, d.n, d.width, squared);
  }

  /** `pCQR.__init__` / `pCER.__init__` after the base model is built:
      penalties 1 and 2 deactivate the base objective and add the penalised
      one, penalty 3 keeps it and adds the Lipschitz caps, and any other code
      raises a ValueError.  In every accepted case exactly one objective is
      active. */
  function Penalize(base: Formulation, loss: Loss, tau: real, eta: real, penalty: int): (r: Result<Formulation>)
    requires ActiveCount(base.objectives) == 1 && OnlyActive(base.objectives, BaseObjective(loss))
    ensures r.Err? <==> penalty !in {1, 2, 3}
    ensures r.Err? ==> r.error == InvalidPenalty
    ensures r.Ok? ==> ActiveCount(r.value.objectives) == 1
                      && r.value.dims == base.dims && r.value.vars == base.vars
    ensures penalty in {1, 2} ==>
              && r.value.families == base.families
              && r.value.objectives
                 == Deactivate(base.objectives, BaseObjective(loss))
                    + [Objective("new_objective", PenalisedObjective(loss, tau, eta, base.dims, penalty == 2), true)]
    ensures penalty == 3 ==>
              && r.value.objectives == base.objectives
              && r.value.families == base.families["lipschitz_norm" := Lipschitz(base.dims, eta)]
  {
    if penalty == 1 || penalty == 2 then
      var added := Objective("new_objective", PenalisedObjective(loss, tau, eta, base.dims, penalty == 2), true);
      ReplaceObjective(base.objectives, BaseObjective(loss), added);
      Ok(base.(objectives := Deactivate(base.objectives, BaseObjective(loss)) + [added]))
    else if penalty == 3 then
      Ok(base.(families := base.families["lipschitz_norm" := Lipschitz(base.dims, eta)]))
    else
      Err(InvalidPenalty)
  }
}

=== FILE: tools.dfy ===
/** Data-shape normalisers and validators, the NEOS e-mail check and the
    solver-selection table of `pystoned/utils/tools.py`. */
module Tools {
  import opened Outcomes
  import opened Config
  import Expr
  import Hyperplanes

  /** An input value: a Python number, a Python list of numbers, or a
      Python list of rows.  The validators first pass their data through
      `trans_list`, so there a numpy array acts as the list its `tolist()`
      returns; the builders index their arguments directly. */
  datatype PyList = Scalar(v: real) | Flat(vs: seq<real>) | Nested(rows: seq<seq<real>>)

  /** `trans_list`: a list is returned as it is; anything else must have a
      `tolist()` method, which a Python number lacks. */
  function TransList(li: PyList): (r: Result<PyList>)
    ensures r.Ok? <==> !li.Scalar?
    ensures r.Ok? ==> r.value == li
    ensures r.Err? ==> r.error == AttributeError
  {
    if li.Scalar? then Err(AttributeError) else Ok(li)
  }

  /** `to_1d_list`: a number becomes a one-element list, a list of rows its
      first column, and a flat list is returned as it is.  `li[0]` fails on
      an empty list, and `li[i][0]` on an empty row. */
  function ToOneD(li: PyList): (r: Result<seq<real>>)
    ensures li.Scalar? ==> r == Ok([li.v])
    ensures li.Flat? ==> (r.Ok? <==> |li.vs| > 0)
    ensures li.Flat? && r.Ok? ==> r.value == li.vs
    ensures li.Nested? ==> (r.Ok? <==> |li.rows| > 0 && forall i :: 0 <= i < |li.rows| ==> |li.rows[i]| > 0)
    ensures li.Nested? && r.Ok? ==> |r.value| == |li.rows| && forall i :: 0 <= i < |li.rows| ==> r.value[i] == li.rows[i][0]
    ensures r.Err? ==> r.error == IndexError
  {
    match li
    case Scalar(v) => Ok([v])
    case Flat(vs) => if |vs| == 0 then Err(IndexError) else Ok(vs)
    case Nested(rows) =>
      if |rows| == 0 || exists i :: 0 <= i < |rows| && |rows[i]| == 0 then Err(IndexError)
      else Ok(seq(|rows|, i requires 0 <= i < |rows| => rows[i][0]))
  }

  /** Each number of a flat list as a one-element row. */
  function Column(vs: seq<real>): (rows: seq<seq<real>>)
    ensures |rows| == |vs| && forall i :: 0 <= i < |vs| ==> rows[i] == [vs[i]]
  {
    seq(|vs|, i requires 0 <= i < |vs| => [vs[i]])
  }

  /** `to_2d_list`: each element of a flat list becomes a one-element row and
      a list of rows is returned as it is.  Indexing a number raises a
      TypeError, indexing an empty list an IndexError. */
  function ToTwoD(li: PyList): (r: Result<seq<seq<real>>>)
    ensures r.Ok? <==> (li.Flat? && |li.vs| > 0) || (li.Nested? && |li.rows| > 0)
    ensures r.Err? ==> r.error == (if li.Scalar? then TypeError else IndexError)
    ensures li.Flat? && r.Ok? ==> |r.value| == |li.vs| && forall i :: 0 <= i < |li.vs| ==> r.value[i] == [li.vs[i]]
    ensures li.Nested? && r.Ok? ==> r.value == li.rows
  {
    match li
    case Scalar(_) => Err(TypeError)
    case Flat(vs) => if |vs| == 0 then Err(IndexError) else Ok(Column(vs))
    case Nested(rows) => if |rows| == 0 then Err(IndexError) else Ok(rows)
  }

  /** Normalising an already normalised array changes nothing. */
  lemma ToTwoDIdempotent(li: PyList)
    requires ToTwoD(li).Ok?
    ensures ToTwoD(Nested(ToTwoD(li).value)) == ToTwoD(li)
  {
  }

  /** A non-empty flat list survives the trip to rows and back. */
  lemma OneDTwoDRoundTrip(l: seq<real>)
    requires |l| > 0
    ensures ToTwoD(Flat(l)).Ok?
    ensures ToOneD(Nested(ToTwoD(Flat(l)).value)) == Ok(l)
  {
    var rows := ToTwoD(Flat(l)).value;
    assert forall i :: 0 <= i < |rows| ==> |rows[i]| == 1;
    var back := ToOneD(Nested(rows)).value;
    assert back == l;
  }

  /** What `assert_valid_basic_data` returns: `y` flat, `x` and `z` as rows. */
  datatype BasicData = BasicData(y: seq<real>, x: seq<seq<real>>, z: Option<seq<seq<real>>>)

  /** `assert_valid_basic_data`: pass `y` and `x` through `trans_list`,
      normalise, then require `x` (and `z` when given) to have as many rows
      as `y` has entries.  The two-dimensional `y` check cannot fire, since
      `to_1d_list` always yields a flat list. */
  function AssertValidBasicData(y: PyList, x: PyList, z: Option<PyList>): (r: Result<BasicData>)
    ensures r.Ok? <==>
              && !y.Scalar? && ToOneD(y).Ok? && ToTwoD(x).Ok?
              && |ToOneD(y).value| == |ToTwoD(x).value|
              && (z.Some? ==> ToTwoD(z.value).Ok? && |ToOneD(y).value| == |ToTwoD(z.value).value|)
    ensures r.Ok? ==> r.value.y == ToOneD(y).value && r.value.x == ToTwoD(x).value
                      && (r.value.z.Some? <==> z.Some?)
                      && (z.Some? ==> r.value.z.value == ToTwoD(z.value).value)
    ensures y.Scalar? || x.Scalar? ==> r == Err(AttributeError)
    ensures !y.Scalar? && !x.Scalar? && (ToOneD(y).Err? || ToTwoD(x).Err?) ==> r == Err(IndexError)
    ensures (!y.Scalar? && ToOneD(y).Ok? && ToTwoD(x).Ok? && |ToOneD(y).value| != |ToTwoD(x).value|)
              ==> r == Err(RowCountMismatch("x"))
    ensures (&& !y.Scalar? && ToOneD(y).Ok? && ToTwoD(x).Ok? && |ToOneD(y).value| == |ToTwoD(x).value|
             && z.Some?)
              ==> && (z.value.Scalar? ==> r == Err(AttributeError))
                  && (z.value.Flat? && |z.value.vs| == 0 ==> r == Err(IndexError))
                  && (z.value.Nested? && |z.value.rows| == 0 ==> r == Err(IndexError))
                  && (ToTwoD(z.value).Ok? && |ToOneD(y).value| != |ToTwoD(z.value).value|
                      ==> r == Err(RowCountMismatch("z")))
  {
    var yl :- TransList(y);
    var xl :- TransList(x);
    var y1 :- ToOneD(yl);
    var x2 :- ToTwoD(xl);
    if |y1| != |x2| then Err(RowCountMismatch("x"))
    else match z
      case None => Ok(BasicData(y1, x2, None))
      case Some(zv) =>
        var zl :- TransList(zv);
        var z2 :- ToTwoD(zl);
        if |y1| != |z2| then Err(RowCountMismatch("z"))
        else Ok(BasicData(y1, x2, Some(z2)))
  }

  /** The undesirable outputs `b` with their direction vector `gb`. */
  datatype Undesirable = Undesirable(b: seq<seq<real>>, gb: seq<real>)

  /** What `assert_valid_direciontal_data` returns. */
  datatype DirectionalData = DirectionalData(y: seq<seq<real>>, x: seq<seq<real>>, gy: seq<real>, gx: seq<real>,
                                             undesirable: Option<Undesirable>)

  /** All four of `y`, `x`, `gy` and `gx` normalise. */
  predicate Normalises(y: PyList, x: PyList, gy: PyList, gx: PyList)
  {
    ToTwoD(y).Ok? && ToTwoD(x).Ok? && ToOneD(gy).Ok? && ToOneD(gx).Ok?
  }

  /** Outputs and inputs as rows with their direction vectors, once the
      row counts agree and each width matches its direction vector.  The
      width of a normalised array is the length of its first row.  `y` and
      `x` pass through `trans_list` first, so a number there is an
      AttributeError; an empty list or row is an IndexError. */
  function DirectionalCore(y: PyList, x: PyList, gy: PyList, gx: PyList): (r: Result<DirectionalData>)
    ensures r.Ok? <==>
              && Normalises(y, x, gy, gx)
              && |ToTwoD(y).value| == |ToTwoD(x).value|
              && |ToTwoD(y).value[0]| == |ToOneD(gy).value|
              && |ToTwoD(x).value[0]| == |ToOneD(gx).value|
    ensures r.Ok? ==>
              r.value == DirectionalData(ToTwoD(y).value, ToTwoD(x).value, ToOneD(gy).value, ToOneD(gx).value, None)
    ensures y.Scalar? || x.Scalar? ==> r == Err(AttributeError)
    ensures !y.Scalar? && !x.Scalar? && !Normalises(y, x, gy, gx) ==> r == Err(IndexError)
    ensures Normalises(y, x, gy, gx) ==>
              && (|ToTwoD(y).value| != |ToTwoD(x).value| ==> r == Err(RowCountMismatch("x")))
              && (|ToTwoD(y).value| == |ToTwoD(x).value| && |ToTwoD(y).value[0]| != |ToOneD(gy).value|
                  ==> r == Err(WidthMismatch("y")))
              && (&& |ToTwoD(y).value| == |ToTwoD(x).value| && |ToTwoD(y).value[0]| == |ToOneD(gy).value|
                  && |ToTwoD(x).value[0]| != |ToOneD(gx).value|
                  ==> r == Err(WidthMismatch("x")))
  {
    var yl :- TransList(y);
    var xl :- TransList(x);
    var y2 :- ToTwoD(yl);
    var x2 :- ToTwoD(xl);
    var gy1 :- ToOneD(gy);
    var gx1 :- ToOneD(gx);
    if |y2| != |x2| then Err(RowCountMismatch("x"))
    else if |y2[0]| != |gy1| then Err(WidthMismatch("y"))
    else if |x2[0]| != |gx1| then Err(WidthMismatch("x"))
    else Ok(DirectionalData(y2, x2, gy1, gx1, None))
  }

  /** `b` and `gb` both normalise; a missing `gb` cannot. */
  predicate UndesirableNormalises(b: PyList, gb: Option<PyList>)
  {
    ToTwoD(b).Ok? && gb.Some? && ToOneD(gb.value).Ok?
  }

  /** The error the `b` branch raises before its shape checks: `trans_list`
      on a number, then `to_2d_list` on an empty list, then `to_1d_list`
      on a missing `gb` (`None[0]`) or an empty one. */
  predicate UndesirableFails(b: PyList, gb: Option<PyList>, e: Error)
  {
    && (b.Scalar? ==> e == AttributeError)
    && (!b.Scalar? && ToTwoD(b).Err? ==> e == IndexError)
    && (ToTwoD(b).Ok? && gb.None? ==> e == TypeError)
    && (ToTwoD(b).Ok? && gb.Some? && ToOneD(gb.value).Err? ==> e == IndexError)
  }

  /** The record returned with an accepted `b`: the core data plus `b` as
      rows and `gb` flat. */
  function WithUndesirable(d: DirectionalData, b: PyList, gb: Option<PyList>): DirectionalData
    requires UndesirableNormalises(b, gb)
  {
    d.(undesirable := Some(Undesirable(ToTwoD(b).value, ToOneD(gb.value).value)))
  }

  /** `assert_valid_direciontal_data` as written: the row check on `b`
      compares `b`'s row count with itself, so only `b`'s width is checked.
      A missing `gb` makes `to_1d_list(None)` raise a TypeError. */
  function AssertValidDirectionalDataAsWritten(y: PyList, x: PyList, b: Option<PyList>, gy: PyList, gx: PyList,
                                               gb: Option<PyList>): (r: Result<DirectionalData>)
    ensures r.Ok? <==> (DirectionalCore(y, x, gy, gx).Ok? &&
              (b.Some? ==> UndesirableNormalises(b.value, gb)
                           && |ToTwoD(b.value).value[0]| == |ToOneD(gb.value).value|))
    ensures DirectionalCore(y, x, gy, gx).Err? ==> r == DirectionalCore(y, x, gy, gx)
    ensures r.Ok? && b.None? ==> r == DirectionalCore(y, x, gy, gx)
    ensures r.Ok? && b.Some? ==> r.value == WithUndesirable(DirectionalCore(y, x, gy, gx).value, b.value, gb)
    ensures DirectionalCore(y, x, gy, gx).Ok? && b.Some? ==>
              && (!UndesirableNormalises(b.value, gb) ==> r.Err? && UndesirableFails(b.value, gb, r.error))
              && (UndesirableNormalises(b.value, gb) && |ToTwoD(b.value).value[0]| != |ToOneD(gb.value).value|
                  ==> r == Err(WidthMismatch("b")))
    ensures r != Err(RowCountMismatch("b"))
  {
    var d :- DirectionalCore(y, x, gy, gx);
    match b
    case None => Ok(d)
    case Some(bv) =>
      var bl :- TransList(bv);
      var b2 :- ToTwoD(bl);
      if gb.None? then Err(TypeError)
      else
        var gb1 :- ToOneD(gb.value);
        if |b2| != |b2| then Err(RowCountMismatch("b"))
        else if |b2[0]| != |gb1| then Err(WidthMismatch("b"))
        else Ok(d.(undesirable := Some(Undesirable(b2, gb1))))
  }

  /** `assert_valid_direciontal_data` with the evidently intended row check:
      `b` must have as many rows as `y`. */
  function AssertValidDirectionalData(y: PyList, x: PyList, b: Option<PyList>, gy: PyList, gx: PyList,
                                      gb: Option<PyList>): (r: Result<DirectionalData>)
    ensures r.Ok? <==> (DirectionalCore(y, x, gy, gx).Ok? &&
              (b.Some? ==> UndesirableNormalises(b.value, gb)
                           && |ToTwoD(b.value).value| == |ToTwoD(y).value|
                           && |ToTwoD(b.value).value[0]| == |ToOneD(gb.value).value|))
    ensures DirectionalCore(y, x, gy, gx).Err? ==> r == DirectionalCore(y, x, gy, gx)
    ensures r.Ok? && b.None? ==> r == DirectionalCore(y, x, gy, gx)
    ensures r.Ok? && b.Some? ==> r.value == WithUndesirable(DirectionalCore(y, x, gy, gx).value, b.value, gb)
    ensures r.Ok? && b.Some? ==>
              r.value.undesirable.Some? && |r.value.undesirable.value.b| == |r.value.y|
    ensures DirectionalCore(y, x, gy, gx).Ok? && b.Some? ==>
              && (!UndesirableNormalises(b.value, gb) ==> r.Err? && UndesirableFails(b.value, gb, r.error))
              && (UndesirableNormalises(b.value, gb) && |ToTwoD(b.value).value| != |ToTwoD(y).value|
                  ==> r == Err(RowCountMismatch("b")))
              && (&& UndesirableNormalises(b.value, gb) && |ToTwoD(b.value).value| == |ToTwoD(y).value|
                  && |ToTwoD(b.value).value[0]| != |ToOneD(gb.value).value|
                  ==> r == Err(WidthMismatch("b")))
  {
    var d :- DirectionalCore(y, x, gy, gx);
    match b
    case None => Ok(d)
    case Some(bv) =>
      var bl :- TransList(bv);
      var b2 :- ToTwoD(bl);
      if gb.None? then Err(TypeError)
      else
        var gb1 :- ToOneD(gb.value);
        if |d.y| != |b2| then Err(RowCountMismatch("b"))
        else if |b2[0]| != |gb1| then Err(WidthMismatch("b"))
        else Ok(d.(undesirable := Some(Undesirable(b2, gb1))))
  }

  /** Two outputs and inputs but a single row of undesirable output: the
      check as written accepts the data, the intended check rejects it. */
  lemma BRowCheckNeverFires()
    ensures var y, x, b := Nested([[1.0], [2.0]]), Nested([[3.0], [4.0]]), Some(Nested([[5.0]]));
            && AssertValidDirectionalDataAsWritten(y, x, b, Flat([1.0]), Flat([1.0]), Some(Flat([1.0]))).Ok?
            && AssertValidDirectionalData(y, x, b, Flat([1.0]), Flat([1.0]), Some(Flat([1.0])))
               == Err(RowCountMismatch("b"))
  {
  }

  // ---------------------------------------------------------------------
  // NEOS e-mail check
  // ---------------------------------------------------------------------

  /** The address argument: the `OPT_LOCAL` token or an e-mail address. */
  datatype EmailArg = OptLocal | Address(s: string)

  predicate IsAlnum(ch: char)
  {
    ('a' <= ch <= 'z') || ('A' <= ch <= 'Z') || ('0' <= ch <= '9')
  }

  predicate AllAlnum(s: string)
  {
    forall k :: 0 <= k < |s| ==> IsAlnum(s[k])
  }

  /** Position of the first occurrence of `ch`. */
  function FirstIndex(s: string, ch: char): (r: Option<nat>)
    ensures r.None? <==> ch !in s
    ensures r.Some? ==> r.value < |s| && s[r.value] == ch && ch !in s[..r.value]
  {
    if |s| == 0 then None
    else if s[0] == ch then Some(0)
    else
      match FirstIndex(s[1..], ch)
      case None => None
      case Some(k) =>
        assert s[..k + 1] == [s[0]] + s[1..][..k];
        Some(k + 1)
  }

  /** Position of the last occurrence of `ch`. */
  function LastIndex(s: string, ch: char): (r: Option<nat>)
    ensures r.None? <==> ch !in s
    ensures r.Some? ==> r.value < |s| && s[r.value] == ch && ch !in s[r.value + 1..]
  {
    if |s| == 0 then None
    else if s[|s| - 1] == ch then Some(|s| - 1)
    else
      var init := s[..|s| - 1];
      match LastIndex(init, ch)
      case None =>
        assert s == init + [s[|s| - 1]];
        None
      case Some(k) =>
        assert s[k + 1..] == init[k + 1..] + [s[|s| - 1]];
        Some(k)
  }

  /** The part after the `@`: free of `@`, with a last `.` that has
      something before it and a non-empty alphanumeric tail after it. */
  predicate DomainMatches(rest: string)
  {
    && '@' !in rest
    && match LastIndex(rest, '.')
       case None => false
       case Some(dot) => dot > 0 && dot + 1 < |rest| && AllAlnum(rest[dot + 1..])
  }

  /** The address check as a scan: a first `@` that is not the first
      character, followed by a matching domain part. */
  predicate EmailMatches(s: string)
  {
    match FirstIndex(s, '@')
    case None => false
    case Some(at) => at > 0 && DomainMatches(s[at + 1..])
  }

  /** The pattern `[^@]+@[^@]+\.[a-zA-Z0-9]+`, matched from the start of the
      address to its end: the address splits at an `@` (position `i`) and a
      later `.` (position `j`) into three non-empty parts, the first two
      free of `@` and the last alphanumeric. */
  ghost predicate EmailPattern(s: string)
  {
    exists i, j :: 0 < i && i + 1 < j && j + 1 < |s| && s[i] == '@' && s[j] == '.'
                   && '@' !in s[..i] && '@' !in s[i + 1..j] && AllAlnum(s[j + 1..])
  }

  lemma EmailMatchesSound(s: string)
    requires EmailMatches(s)
    ensures EmailPattern(s)
  {
    var at := FirstIndex(s, '@').value;
    var rest := s[at + 1..];
    var dot := LastIndex(rest, '.').value;
    var i, j := at, at + 1 + dot;
    assert s[i + 1..j] == rest[..dot];
    assert s[j + 1..] == rest[dot + 1..];
    assert forall c :: c in rest[..dot] ==> c in rest;
  }

  /** The first occurrence is the one with no earlier occurrence. */
  lemma FirstIndexAt(s: string, ch: char, i: nat)
    requires i < |s| && s[i] == ch && ch !in s[..i]
    ensures FirstIndex(s, ch) == Some(i)
  {
    var r := FirstIndex(s, ch).value;
    assert forall k :: 0 <= k < i ==> s[k] != ch by {
      forall k | 0 <= k < i
        ensures s[k] != ch
      {
        assert s[k] == s[..i][k];
      }
    }
    assert forall k :: 0 <= k < r ==> s[k] != ch by {
      forall k | 0 <= k < r
        ensures s[k] != ch
      {
        assert s[k] == s[..r][k];
      }
    }
  }

  /** The last occurrence is the one with no later occurrence. */
  lemma LastIndexAt(s: string, ch: char, i: nat)
    requires i < |s| && s[i] == ch && ch !in s[i + 1..]
    ensures LastIndex(s, ch) == Some(i)
  {
    var r := LastIndex(s, ch).value;
    assert forall k :: i < k < |s| ==> s[k] != ch by {
      forall k | i < k < |s|
        ensures s[k] != ch
      {
        assert s[k] == s[i + 1..][k - i - 1];
      }
    }
    assert forall k :: r < k < |s| ==> s[k] != ch by {
      forall k | r < k < |s|
        ensures s[k] != ch
      {
        assert s[k] == s[r + 1..][k - r - 1];
      }
    }
  }

  /** Neither `@` nor `.` is alphanumeric. */
  lemma AlnumHasNoSeparator(s: string)
    requires AllAlnum(s)
    ensures '@' !in s && '.' !in s
  {
    assert forall k :: 0 <= k < |s| ==> s[k] != '@' && s[k] != '.';
  }

  lemma DomainMatchesAt(rest: string, d: nat)
    requires 0 < d && d + 1 < |rest| && rest[d] == '.'
    requires '@' !in rest[..d] && AllAlnum(rest[d + 1..])
    ensures DomainMatches(rest)
  {
    AlnumHasNoSeparator(rest[d + 1..]);
    assert rest == rest[..d] + [rest[d]] + rest[d + 1..];
    LastIndexAt(rest, '.', d);
  }

  lemma EmailMatchesAt(s: string, i: nat, j: nat)
    requires 0 < i && i + 1 < j && j + 1 < |s| && s[i] == '@' && s[j] == '.'
    requires '@' !in s[..i] && '@' !in s[i + 1..j] && AllAlnum(s[j + 1..])
    ensures EmailMatches(s)
  {
    FirstIndexAt(s, '@', i);
    var rest := s[i + 1..];
    var d := j - i - 1;
    assert rest[..d] == s[i + 1..j];
    assert rest[d + 1..] == s[j + 1..];
    DomainMatchesAt(rest, d);
  }

  lemma EmailMatchesComplete(s: string)
    requires EmailPattern(s)
    ensures EmailMatches(s)
  {
    var i: nat, j: nat :| 0 < i && i + 1 < j && j + 1 < |s| && s[i] == '@' && s[j] == '.'
                && '@' !in s[..i] && '@' !in s[i + 1..j] && AllAlnum(s[j + 1..]);
    EmailMatchesAt(s, i, j);
  }

  /** The scan accepts exactly the addresses the pattern matches. */
  lemma EmailMatchesIffPattern(s: string)
    ensures EmailMatches(s) <==> EmailPattern(s)
  {
    if EmailMatches(s) {
      EmailMatchesSound(s);
    }
    if EmailPattern(s) {
      EmailMatchesComplete(s);
    }
  }

  /** `set_neos_email`: `OPT_LOCAL` selects local solving; any other address
      must match the pattern or a ValueError is raised. */
  function SetNeosEmail(e: EmailArg): (r: Result<bool>)
    ensures e.OptLocal? ==> r == Ok(false)
    ensures e.Address? ==> (r == Ok(true) <==> EmailPattern(e.s))
    ensures e.Address? ==> (r == Err(InvalidEmail) <==> !EmailPattern(e.s))
  {
    match e
    case OptLocal => Ok(false)
    case Address(s) =>
      EmailMatchesIffPattern(s);
      if EmailMatches(s) then Ok(true) else Err(InvalidEmail)
  }

  // ---------------------------------------------------------------------
  // Solver selection
  // ---------------------------------------------------------------------

  /** The `solver` argument: `OPT_DEFAULT` or a solver name. */
  datatype SolverArg = DefaultSolver | Named(name: string)

  /** Where the model is sent, and to which solver. */
  datatype SolveRequest = SolveRequest(remote: bool, solver: string)

  /** `optimize_model`: the decision of where and with which solver to solve,
      with `available` standing for `SolverFactory(solver).available()`. */
  function OptimizeModel(email: EmailArg, cet: Cet, solver: SolverArg, available: bool): (r: Result<SolveRequest>)
    ensures email.Address? && !EmailPattern(email.s) ==> r == Err(InvalidEmail)
    ensures email.Address? && EmailPattern(email.s) ==>
              r == Ok(SolveRequest(true, if solver.Named? then solver.name
                                         else if cet == Additive then "mosek" else "knitro"))
    ensures email.OptLocal? ==> (r.Ok? <==> (solver.Named? && available) || cet == Additive)
    ensures email.OptLocal? && r.Ok? ==> !r.value.remote
    ensures email.OptLocal? && solver.Named? && available ==> r.value.solver == solver.name
    ensures email.OptLocal? && !(solver.Named? && available) && cet == Additive ==> r.value.solver == "mosek"
    ensures email.OptLocal? && r.Err? ==> r.error == NoLocalSolver
  {
    var remote :- SetNeosEmail(email);
    if !remote then
      if solver.Named? && available then Ok(SolveRequest(false, solver.name))
      else if cet == Additive then Ok(SolveRequest(false, "mosek"))
      else Err(NoLocalSolver)
    else
      var name := match solver
        case Named(s) => s
        case DefaultSolver => if cet == Additive then "mosek" else "knitro";
      Ok(SolveRequest(true, name))
  }

  /** `assert_optimized`: raises exactly when the model has not been solved. */
  function AssertOptimized(status: int): (r: Result<()>)
    ensures r.Err? <==> status == 0
    ensures r.Err? ==> r.error == NotOptimized
  {
    if status == 0 then Err(NotOptimized) else Ok(())
  }

  /** `assert_various_return_to_scale`: no intercept exists under constant
      returns to scale. */
  function AssertVariousReturnToScale(rts: Rts): (r: Result<()>)
    ensures r.Err? <==> rts == Crs
    ensures r.Err? ==> r.error == NoInterceptUnderCrs
  {
    if rts == Crs then Err(NoInterceptUnderCrs) else Ok(())
  }

  /** The guard refuses to retrieve `alpha` exactly in the settings whose
      hyperplanes were built without one: there the intercept of any
      observation occurs in no hyperplane of the model. */
  lemma AlphaGuardMatchesModel(st: Setting, h: nat, pt: seq<real>)
    ensures AssertVariousReturnToScale(st.rts).Err? <==> !HasIntercept(st)
    ensures AssertVariousReturnToScale(st.rts).Err?
            <==> Expr.Alpha(h) !in Expr.Vars(Hyperplanes.Hyper(h, pt, HasIntercept(st)))
  {
    Hyperplanes.HyperVars(h, pt, HasIntercept(st));
    assert Expr.Alpha(h) !in Hyperplanes.BetaRow(h, |pt|);
  }

  /** A Python number for `y` fails in `trans_list`, before any shape check. */
  lemma NumberOutputRejected()
    ensures AssertValidBasicData(Scalar(1.0), Nested([[2.0]]), None) == Err(AttributeError)
    ensures DirectionalCore(Scalar(1.0), Nested([[2.0]]), Flat([1.0]), Flat([1.0])) == Err(AttributeError)
  {
  }
}
